=== FILE: README.md ===
# firefly core in Dafny

firefly is a 2D lighting and shadow plugin for the Bevy game engine. Its
Rust side does three jobs, and this project models and proves each one:

- **Occluder geometry** (`src/occluders.rs`). Occluders are the shapes that cast shadows.
  - The exact orientation test.
  - Normalisation of a vertex loop to clockwise winding.
  - Construction of polygon occluders (the loop is closed) and polyline occluders (the chain is doubled back into a palindrome).
  - Round-rectangle occluders and their bounding rects.
  - The copy-with-one-field-changed builders.
  - Vertex placement by rotation and translation.
  - The even-odd point-in-polygon test.
- **The `BufferManager` slot allocator** (`src/buffers.rs`). It hands stable GPU slots to entities:
  - The value of slot `i` lives at buffer position `i + 1`, because position 0 holds a placeholder.
  - Freed slots go to the front of a deque and are reused from its back.
  - A dirty write range decides what each flush uploads.
  - The manager rebuilds itself when more than half the capacity is free slots.
  - The render-world systems keep one slot per round-rectangle occluder.
- **`LightPipelineKey`** (`src/pipelines.rs`). It is a 32-bit flag word:
  - HDR, tonemap-in-shader and deband flags in bits 0-2.
  - The tonemap method in bits 26-28.
  - log2 of the MSAA sample count in bits 29-31.
  - Both lightmap pipelines derive their shader defines, target format and sample count from it.
  - `queue_lights` in `src/lights.rs` composes the key from a camera's settings.

Modules, one per file: `Wrappers` (Option), `Seqs` (reversal, palindromes),
`Geometry` (vectors, orientation, rigid placement), `Winding` (turn sequence,
`normalize_vertices`), `Occluders`, `Containment` (`point_inside_poly`), `Buffers`
(`BufferManager`), `OccluderSlots` (the systems that use it), `Bits` (`u32` bit
operations), `PipelineKey`.

Conventions:
- Coordinates are exact reals.
- A rotation is a (cos, sin) pair. Where it matters, a lemma requires it to be a unit pair.
- `vertices_rect` takes a square root. Dafny's reals have none, so that rect is kept as its squared half-side (`Rect.Square`), and containment compares squared lengths.
- `BufferManager` is an immutable value: each operation returns the new manager.
- The write a flush makes to the GPU buffer becomes an `Upload` value: nothing, the whole buffer, or a range. A reset, which drops that GPU buffer and uploads the placeholder to a new one, is reported by a flag next to it.
- A manager is only ever built by `New` and changed by its own operations. Those keep `Inv` (every slot and queued free slot has a buffer entry), and the operations require it.

## Model

| member | source | states |
|---|---|---|
| Geometry.Orient | src/occluders.rs:283-292 | Left exactly when the cross product of (b - a) and (p - a) is positive, Right exactly when it is negative, Touch exactly when it is zero |
| Geometry.OrientSwap | src/occluders.rs:283-292 | exchanging the first two points flips Left and Right and keeps Touch |
| Geometry.OrientReverse | src/occluders.rs:283-292 | walking three points in the opposite order flips the orientation |
| Geometry.PlaceIsRigid | src/occluders.rs:415-417 | rotating by a unit rotation and translating preserves the squared distance between any two points |
| Seqs.Reverse | src/occluders.rs:270 | the reversal has the same length and holds element `|s|-1-i` at position i |
| Seqs.ReverseInvolutive | src/occluders.rs:270 | reversing twice gives the original sequence |
| Seqs.ReverseMultiset | src/occluders.rs:270 | reversal keeps the multiset of elements |
| Seqs.PalindromeIffReverseFixed | src/occluders.rs:148-150 | a sequence is a palindrome exactly when reversing it gives it back |
| Winding.Turns | src/occluders.rs:249-263 | one orientation per vertex: the turn of each sliding window of three, then the two windows wrapping round the end |
| Winding.NormalizeVertices | src/occluders.rs:239-274 | None exactly when there are fewer than 2 vertices; 2 vertices come back unchanged; otherwise the loop or its reversal |
| Winding.ReverseMirrorsTurns | src/occluders.rs:265-270 | the reversed loop turns left somewhere exactly when the loop turns right somewhere, and vice versa |
| Winding.NormalizeWinding | src/occluders.rs:265-273 | concave and already-clockwise loops are kept, any other loop is reversed, and every loop that is not concave comes out clockwise |
| Winding.NormalizeKeepsVertices | src/occluders.rs:239-274 | the result has the same length and the same multiset of vertices |
| Winding.NormalizeIdempotent | src/occluders.rs:239-274 | normalising a normalised loop changes nothing |
| Winding.NormalizePalindrome | src/occluders.rs:147-154 | a palindrome of at least 2 vertices is returned unchanged, so a polyline's doubled-back chain survives normalisation |
| Occluders.MaxNormSq | src/occluders.rs:226-230 | an upper bound on every vertex's squared length that some vertex attains |
| Occluders.VerticesRect | src/occluders.rs:225-236 | an origin-centred square whose half-side is the length of the longest vertex, so it contains every vertex |
| Occluders.ShapeRect | src/occluders.rs:60-71 | a round rectangle gets the centred box of half-side max(width, height)/2 + radius; a vertex shape gets a centred square whose squared half-side is the largest squared vertex length: no vertex is longer and some vertex reaches it, so the square contains every vertex |
| Occluders.FromShape | src/occluders.rs:59-81 | keeps the shape with its rect, fully opaque, z-sorted, black, no ignored sprites, zero offset |
| Occluders.WithColor | src/occluders.rs:89-93 | only the colour changes |
| Occluders.WithOpacity | src/occluders.rs:96-100 | only the opacity changes |
| Occluders.WithIgnoredSprites | src/occluders.rs:103-107 | only the ignored sprites change |
| Occluders.WithZSorting | src/occluders.rs:110-114 | only the z-sorting flag changes |
| Occluders.WithOffset | src/occluders.rs:117-121 | only the offset changes |
| Occluders.BuildersCommute | src/occluders.rs:89-121 | each of the ten pairs of builders for different fields (color, opacity, sprite mask, z, offset) commutes, and for each of the five fields the later of two builders wins |
| Occluders.PolygonOccluder | src/occluders.rs:132-137 | None exactly when there are fewer than 2 vertices; otherwise a polygon storing the normalised loop closed by its first vertex, one vertex longer than the input, and the occluder equals the one built from that shape (rect from the vertices, default fields) |
| Occluders.PolygonIsClockwise | src/occluders.rs:132-137 | a polygon built from a loop that is not concave stores a clockwise loop |
| Occluders.DoubledBack | src/occluders.rs:148-150 | the chain followed by its reversal without the repeated end vertex is a palindrome of length 2n-1 |
| Occluders.PolylineOccluder | src/occluders.rs:139-154 | None exactly when there are fewer than 2 vertices; otherwise a polyline storing `v ++ reverse(v)[1..]`, a palindrome, and the occluder equals the one built from that shape (rect from the vertices, default fields) |
| Occluders.PolylineAsWritten | src/occluders.rs:147-150 | the empty list panics at the slice; every other list ends as the corrected constructor does |
| Occluders.EmptyPolylinePanics | src/occluders.rs:145-150 | the empty list panics as written, where the documented contract gives None |
| Occluders.RoundRectangleOccluder | src/occluders.rs:167-173 | the round-rectangle shape, with the centred box of half-side max(width, height)/2 + radius |
| Occluders.RectangleOccluder | src/occluders.rs:157-159 | a round rectangle with radius 0, inside the centred box of half-side max(width, height)/2, with the `from_shape` defaults |
| Occluders.CircleOccluder | src/occluders.rs:176-178 | a round rectangle with no extent, whose box is the square circumscribing the circle |
| Occluders.VerticalCapsuleOccluder | src/occluders.rs:181-183 | extent only along y; the centred box of half-side max(0, length)/2 + radius; the `from_shape` defaults |
| Occluders.HorizontalCapsuleOccluder | src/occluders.rs:186-188 | extent only along x; the centred box of half-side max(length, 0)/2 + radius; the `from_shape` defaults |
| Occluders.CapsuleOccluder | src/occluders.rs:191-193 | the vertical capsule: width 0, height `length`, the given radius, the centred box of half-side max(0, length)/2 + radius, the `from_shape` defaults |
| Occluders.CapsulesAreTransposed | src/occluders.rs:181-188 | horizontal and vertical capsules of the same size share their rect and swap width and height |
| Occluders.TranslateVertices | src/occluders.rs:415-417 | same length, each vertex rotated then translated, in order |
| Geometry.Place | src/occluders.rs:415-417 | the x unit vector lands at `pos + (cos, sin)` and the y unit vector at `pos + (-sin, cos)`, fixing the rotation as counter-clockwise; the origin lands on `pos`; the identity rotation only translates |
| Geometry.PlaceIsAdditive | src/occluders.rs:415-417 | relative to `pos`, the image of a sum is the sum of the images |
| Geometry.PlaceIsHomogeneous | src/occluders.rs:415-417 | relative to `pos`, the image of a scaled vector is the scaled image |
| Geometry.PlaceKeepsLength | src/occluders.rs:415-417 | with a unit rotation the placed point is as far from `pos` as the vertex is from the origin |
| Geometry.RotationKeepsNormSq | src/occluders.rs:415-417 | rotating by (cos, sin) with cos² + sin² = 1 keeps the squared length |
| Occluders.TranslateIsCongruent | src/occluders.rs:415-417 | under a unit rotation the placed outline keeps every pairwise distance |
| Occluders.ShapeVertices | src/occluders.rs:383-392 | round rectangles have no outline; polylines are placed as stored; polygons get their first vertex appended, so the outline ends where it starts |
| Occluders.ShapeVerticesIter | src/occluders.rs:394-411 | no iterator for a round rectangle; otherwise the stored vertices placed in order, as many as stored |
| Occluders.VerticesIterAndVertices | src/occluders.rs:383-411 | on a polyline the iterator yields exactly `vertices`; on a polygon `vertices` is the iterator's sequence plus the closing copy of the first vertex |
| Occluders.PolygonOutline | src/occluders.rs:132-137 | the outline of a polygon built from n vertices has n + 2 vertices and is closed |
| Occluders.SameOccluderIsEquivalence | src/occluders.rs:208-212 | the comparison is reflexive, symmetric and transitive |
| Occluders.SameOccluderIgnoresAppearance | src/occluders.rs:208-212 | rect, depth, colour, opacity and z-sorting do not affect the comparison; a different position, rotation or shape always does |
| Occluders.SameOccluder | src/occluders.rs:208-212 | two extracted occluders compare equal exactly when they agree once rect, depth, colour, opacity and z-sorting are disregarded |
| Containment.PointInsidePoly | src/occluders.rs:294-316 | false outside the rect; inside it, true exactly when the closed loop has an odd number of parity-flipping edges |
| Occluders.RectContains | src/occluders.rs:294-297 | a box containing a point is non-empty; a vertex square contains the disc of its half-side and lies within the disc of sqrt(2) times it |
| Containment.EdgeToggles | src/occluders.rs:303-314 | the per-edge flip test; an edge with equal end heights never flips, so its division by zero is never reached |
| Containment.CrossingsPrefix | src/occluders.rs:303-315 | each edge adds its own flip to the running count |
| Containment.FlatEdgeNeverToggles | src/occluders.rs:304-305 | horizontal edges never flip the parity |
| Containment.VerticalEdgeToggles | src/occluders.rs:304-313 | a vertical edge flips exactly when p's height is in its half-open span and p is not to its right |
| Containment.TogglesSymmetric | src/occluders.rs:304-313 | the flip test does not depend on the direction the edge is walked |
| Containment.CrossingsReverse | src/occluders.rs:303-315 | walking a chain backwards flips the parity on the same number of edges |
| Containment.CrossingsRotate | src/occluders.rs:299-315 | starting the closed walk one vertex later counts the same edges |
| Containment.CrossingsIndependentOfWinding | src/occluders.rs:299-315 | a loop and its reversal give the same count |
| Containment.NormalizeKeepsInside | src/occluders.rs:239-274 | normalising a loop never changes the even-odd verdict for any point |
| Buffers.ReserveSize | src/buffers.rs:211-213 | the smallest multiple of 1024 that is at least n |
| Buffers.Reserve | src/buffers.rs:209-214 | reserving never shrinks the capacity, and the result is the old capacity or the requested one, whichever is larger |
| Buffers.New | src/buffers.rs:156-170 | only the placeholder, no slot handed out, nothing free, empty write range, capacity 1 |
| Buffers.NewIndex | src/buffers.rs:149-154 | pops the back of the free deque when it is non-empty, otherwise hands out `nextIndex` and advances it; a tight manager always hands out a slot below the new `nextIndex` |
| Buffers.SetValue | src/buffers.rs:182-204 | keeps a caller slot below `nextIndex`, leaving the free deque and `nextIndex` alone, and otherwise allocates as `new_index` does; the value lands at slot + 1 and every other entry is unchanged; the write range becomes exactly the slot when it was empty and otherwise widens to it; the invariants are kept |
| Buffers.Flush | src/buffers.rs:207-238 | no upload for an empty range; a range upload when the range fits the capacity, otherwise a whole-buffer upload after reserving past `writeMax` in steps of 1024; reports a reset exactly when more than half the capacity is free slots, and then returns a fresh manager holding only the placeholder; the range ends empty |
| Buffers.FlushWritesWithinBuffer | src/buffers.rs:207-221 | a range upload covers real slots only, never the placeholder; after a full upload the capacity holds the whole buffer |
| Buffers.FreeIndex | src/buffers.rs:244-249 | as written: indices below the buffer length are pushed at the front of the free deque; it keeps the tight invariant for every index except `nextIndex` |
| Buffers.FreeUnallocatedSlotIsHandedOutTwice | src/buffers.rs:244-249 | after freeing slot 0 of a fresh manager, two allocations both return 0 and the second value overwrites the first |
| Buffers.FreeIndexChecked | src/buffers.rs:244-249 | with the guard at `nextIndex`, only handed-out slots are queued and the tight invariant is always kept |
| Buffers.CheckedFreeHandsOutDistinctSlots | src/buffers.rs:244-249 | in the same scenario the corrected guard gives slots 0 and 1, each holding its own value |
| Buffers.AllocationsDistinct | src/buffers.rs:149-154 | for a valid manager (buffer one longer than the slots handed out, every queued slot below `nextIndex`) with no slot queued twice, two allocations in a row return different slots |
| Buffers.FreeManyPushesFront | src/buffers.rs:244-249 | freeing slots inside the buffer one by one with `free_index` puts reverse(xs) in front of the deque |
| Buffers.AllocationPopsInOrder | src/buffers.rs:149-154 | a deque holding reverse(q) hands out q in order |
| Buffers.FreedSlotsReusedFifo | src/buffers.rs:149-154 | with an empty deque, freeing slots inside the buffer and then allocating as many returns exactly those slots in order |
| OccluderSlots.PrepareSlots | src/buffers.rs:101-124 | occluders that are not round rectangles, or whose form is unchanged and that already hold a slot, are left as they are; every other one ends holding a slot inside the write range, and that slot holds its shader value unless a later occluder received the same slot; an occluder whose slot the manager had already handed out keeps that slot; the manager invariants are kept |
| OccluderSlots.WriteOccluder | src/buffers.rs:101-122 | one loop pass: a skipped occluder changes nothing; a written one gets its uniform stored at its slot + 1 with every other entry kept, and a slot inside the widened write range; a slot the manager had already handed out is kept |
| OccluderSlots.RoundUniform | src/buffers.rs:112-119 | the shader value carries the occluder's position, rotation, width, height and radius |
| OccluderSlots.PrepareOccluders | src/buffers.rs:95-126 | every occluder that had to be written is covered by this frame's upload; nothing is uploaded when nothing was pending; an occluder whose slot the manager had already handed out keeps that slot; without a reset the stored values stay in the buffer; after a reset the manager is the fresh one built from the placeholder |
| OccluderSlots.ReleaseSlot | src/buffers.rs:55-70 | a round rectangle holding a slot passes it to `free_index` as written and forgets it; anything else is left alone; `Inv` is kept, and the tight invariant too unless the slot is `nextIndex` |
| OccluderSlots.ReleaseSlotChecked | src/buffers.rs:244-249 | the same hook with the corrected guard: only a slot already handed out is queued, and the tight invariant is always kept |
| OccluderSlots.ReleaseHooksAgree | src/buffers.rs:244-249 | the hook as written and the corrected one agree on every slot below `nextIndex` or past the buffer, and differ only on the never-handed-out slots in between |
| OccluderSlots.ReleasedSlotIsReusedNext | src/buffers.rs:79-87 | with no other slot waiting, the released slot is the next one handed out |
| Bits.TrailingZeros | src/pipelines.rs:175-179 | at most 32; below 32 the bit at that index is set |
| Bits.TrailingZerosClearBelow | src/pipelines.rs:175-179 | every bit below the trailing-zero count is clear |
| Bits.TrailingZerosOfZero | src/pipelines.rs:175-179 | 32 trailing zeros exactly for zero |
| Bits.TrailingZerosOfPower | src/pipelines.rs:175-179 | 2^k has k trailing zeros |
| PipelineKey.ShiftsFollowMasks | src/pipelines.rs:168-172 | the MSAA shift is 32 minus the 3 bits of its mask, and the tonemap shift is that minus 3 |
| PipelineKey.FromMsaaSamples | src/pipelines.rs:175-179 | only bits of the MSAA field are set |
| PipelineKey.MsaaSamples | src/pipelines.rs:182-184 | always one of 1, 2, 4, 8, 16, 32, 64, 128 |
| PipelineKey.MsaaDecodeOfEncode | src/pipelines.rs:175-184 | decoding any encoded count gives 2 to the power (trailing zeros mod 8) |
| PipelineKey.MsaaRoundTrip | src/pipelines.rs:175-184 | every count 2^k with k at most 7 survives encode then decode |
| PipelineKey.MsaaOfZeroSamples | src/pipelines.rs:175-184 | a count of 0 encodes to no bits and decodes to 1 |
| PipelineKey.FromHdr | src/pipelines.rs:187-193 | contains HDR exactly when asked to, and no other bit |
| PipelineKey.FieldsDisjoint | src/pipelines.rs:149-172 | the three flags, the tonemap field (bits 26-28) and the MSAA field (bits 29-31) are pairwise disjoint, and every method lies in its field |
| PipelineKey.OrKeepsMsaa | src/pipelines.rs:182-184 | setting bits outside the MSAA field keeps the sample count |
| PipelineKey.FlagsKeepMsaa | src/pipelines.rs:150-163 | or-ing any flag or tonemap method into a key keeps its sample count |
| PipelineKey.MethodIndex | src/pipelines.rs:213 | the method field's value picks the matching method constant |
| PipelineKey.MethodDef | src/pipelines.rs:213-231 | the if-chain always yields the define at the field's position in the method table |
| PipelineKey.CreationShaderDefs | src/pipelines.rs:199-237 | no defines without tonemap-in-shader; with it, exactly the flag, LUT bindings 1 and 2, the method's define, and DEBAND_DITHER as a fifth define exactly when the deband flag is set |
| PipelineKey.ExactlyOneMethodDef | src/pipelines.rs:213-231 | with tonemap-in-shader exactly one method define is emitted, otherwise none |
| PipelineKey.TargetFormat | src/pipelines.rs:239-242 | the HDR format exactly when the HDR bit is set |
| PipelineKey.SpecializeCreation | src/pipelines.rs:199-271 | HDR format exactly for HDR keys, the creation defines, one sample |
| PipelineKey.SpecializeApplication | src/pipelines.rs:319-347 | HDR format exactly for HDR keys, no defines, the key's MSAA sample count |
| PipelineKey.TonemapKey | src/lights.rs:267-280 | every tonemapper maps to one of the method constants |
| PipelineKey.ViewFlags | src/lights.rs:262-285 | the settings' bits never touch the MSAA field |
| PipelineKey.ViewKey | src/lights.rs:261-285 | the composed key keeps every bit of the MSAA key, and holds the HDR bit for HDR views |
| PipelineKey.ViewKeySplits | src/lights.rs:261-285 | the composed key is the MSAA key or-ed with the settings' bits |
| PipelineKey.ViewKeyMsaa | src/lights.rs:261-262 | the composed key decodes to the view's MSAA sample count |
| PipelineKey.ViewKeyFlags | src/lights.rs:262-285 | HDR exactly for HDR views; tonemap-in-shader exactly for non-HDR views with a tonemapper; deband exactly for non-HDR views with dithering enabled |
| PipelineKey.ViewKeyMethodDef | src/lights.rs:264-281 | for a non-HDR view with a tonemapper, the creation pipeline emits that tonemapper's define |

## Left out

- The WGSL shaders are not part of this model. They do the silhouette sequences, angular bins, occlusion test, soft shadows and falloff.
- GPU I/O is reduced to the `Upload` value and the reset flag a flush returns. That covers `RawBufferVec` writes, bind groups, samplers and textures.
- Buffers.Flush: `RawBufferVec::reserve` and `write_buffer` belong to Bevy. The capacity is modelled as "grows to the requested size when that is larger". The fresh manager's capacity of 1 comes from its first upload of the placeholder.
- Buffers.ReserveSize: the size is computed exactly. The source goes through `f32` and `ceil`, which rounds differently above 2^24 elements.
- Buffers.SetValue: requires the buffer to be shorter than `usize::MAX`. This keeps `index + 1` from reaching the `usize::MAX` sentinel. Overflow of `usize` is not modelled.
- Buffers.SetValue: the overwrite path converts the slot with `index as u32 + 1`. A slot of 2^32 or more would be truncated, and slot `u32::MAX` would overflow. The model writes the exact slot + 1, so it describes only buffers of fewer than 2^32 elements.
- OccluderSlots.PrepareSlots: `changed_form` is an input flag. The code that maintains it is not part of this model.
- OccluderSlots.PrepareOccluders: after a reset the occluders keep their old slots. An unchanged occluder holding one is skipped by the next frame's loop, so its value is not stored again. How the renderer reads a slot the manager has not handed out lies outside this model, since the code that consumes the occluder index is not part of it.
- OccluderSlots.ReleasedSlotIsReusedNext: covers only the slot part of `on_occluder_not_visible`. Removing the occluder's components is ECS plumbing.
- Containment.PointInsidePoly: requires a non-empty polygon when the point is inside the rect. The source indexes `poly[0]` there, which would panic.
- Occluders.VerticesRect: the half-side is the square root of the largest squared vertex length. It is kept as that squared length, because Dafny's reals have no square root.
- Floating point is not modelled. Coordinates are exact reals: no `f32` rounding, NaN or infinities, and `total_cmp` is plain comparison.
- `Rot2::radians` (trigonometry) is left out. A rotation is taken as a (cos, sin) pair. This leaves out `ExtractedOccluder::vertices`, which composes it with `Occluders.ShapeVertices`.
- `ExtractedOccluder::vertices_iter` is left out for the same reason. It composes `Rot2::radians` with `Occluders.ShapeVerticesIter` and unwraps the result. For a round rectangle that result is `None`, so the call panics, where `ExtractedOccluder::vertices` returns an empty vector.
- `translate_vertices_iter` is not modelled as an iterator. `Occluders.ShapeVerticesIter` gives the sequence it yields. For a polygon that sequence does not repeat the first vertex, so it is one vertex shorter than `Occluders.ShapeVertices`.
- Occluders.ShapeRect: like the source, the round-rectangle rect is not claimed to bound the rotated shape.
- The sprite pipeline's `specialize`, render phases, extraction, visibility culling and gizmos are left out. They depend on Bevy types outside these files.
- The rest of `queue_lights` (phase binning, pipeline cache) is left out. Only its key composition is modelled.

## Findings

| source | as written | input that shows it | evidently intended | confidence | as-written member | corrected member |
|---|---|---|---|---|---|---|
| src/buffers.rs:244-249 | `free_index` ignores only indices at or past the buffer length. Because of the placeholder, that length is `next_index + 1`, so the slot `next_index`, never handed out, is accepted | a fresh manager; `free_index(0)`; two `set_value(_, None)` calls both return slot 0, and the second value overwrites the first | only slots below `next_index`, the ones already handed out, are queued as free | high, not executed | Buffers.FreeUnallocatedSlotIsHandedOutTwice | Buffers.FreeIndexChecked |
| src/occluders.rs:145-150 | `polyline` slices the reversed copy from index 1 before any length check | the empty vertex list panics at the slice | None for fewer than two vertices, as the doc comment promises | high, not executed | Occluders.PolylineAsWritten | Occluders.PolylineOccluder |

=== FILE: bits.dfy ===
/** The `u32` bit operations the pipeline key relies on: bit tests,
    `count_ones` and `trailing_zeros`. */
module Bits {
  /** Bit `j` of `x`. */
  predicate Bit(x: bv32, j: bv32)
    requires j < 32
  {
    (x >> j) & 1 == 1
  }

  /** The number of set bits among bits 0 .. k-1 of `x`. */
  function CountOnesBelow(x: bv32, k: bv32): (n: nat)
    requires k <= 32
    ensures n <= k as nat
    decreases k
  {
    if k == 0 then 0
    else CountOnesBelow(x, k - 1) + (if Bit(x, k - 1) then 1 else 0)
  }

  /** `u32::count_ones`. */
  function CountOnes(x: bv32): nat
  {
    CountOnesBelow(x, 32)
  }

  lemma {:induction false} CountOnesOfLowMask(k: bv32)
    requires 3 <= k <= 32
    ensures CountOnesBelow(7, k) == 3
    decreases k
  {
    if k > 3 {
      CountOnesOfLowMask(k - 1);
      assert !Bit(7, k - 1);
    } else {
      assert Bit(7, 0) && Bit(7, 1) && Bit(7, 2);
    }
  }

  /** The bits below bit `n`; all 32 bits when `n` is 32. */
  function LowMask(n: bv32): bv32
    requires n <= 32
  {
    (1 << n) - 1
  }

  /** `u32::trailing_zeros`, scanning from bit `k` upwards. */
  function TrailingZerosFrom(x: bv32, k: bv32): (n: bv32)
    requires k <= 32
    ensures k <= n <= 32
    ensures n < 32 ==> Bit(x, n)
    decreases 32 - k
  {
    if k == 32 then 32
    else if Bit(x, k) then k
    else TrailingZerosFrom(x, k + 1)
  }

  /** `u32::trailing_zeros`: the index of the lowest set bit, 32 for zero. */
  function TrailingZeros(x: bv32): (n: bv32)
    ensures n <= 32
    ensures n < 32 ==> Bit(x, n)
  {
    TrailingZerosFrom(x, 0)
  }

  /** A clear bit k on top of clear bits below k gives clear bits below k + 1. */
  lemma ClearBitExtendsMask(x: bv32, k: bv32)
    requires k < 32 && x & LowMask(k) == 0 && !Bit(x, k)
    ensures x & LowMask(k + 1) == 0
  {
  }

  /** Scanning past a clear bit k gives the same count as scanning from k + 1. */
  lemma TrailingZerosFromSkipsClearBit(x: bv32, k: bv32)
    requires k < 32 && !Bit(x, k) && x & LowMask(TrailingZerosFrom(x, k + 1)) == 0
    ensures x & LowMask(TrailingZerosFrom(x, k)) == 0
  {
    assert TrailingZerosFrom(x, k) == TrailingZerosFrom(x, k + 1);
  }

  /** The scan stops at k when bit k is set or no bit is left. */
  lemma TrailingZerosFromStops(x: bv32, k: bv32)
    requires k <= 32 && (k == 32 || Bit(x, k)) && x & LowMask(k) == 0
    ensures x & LowMask(TrailingZerosFrom(x, k)) == 0
  {
    assert TrailingZerosFrom(x, k) == k;
  }

  lemma {:induction false} TrailingZerosFromClearBelow(x: bv32, k: bv32)
    requires k <= 32 && x & LowMask(k) == 0
    ensures x & LowMask(TrailingZerosFrom(x, k)) == 0
    decreases 32 - k
  {
    if k == 32 || Bit(x, k) {
      TrailingZerosFromStops(x, k);
    } else {
      ClearBitExtendsMask(x, k);
      TrailingZerosFromClearBelow(x, k + 1);
      TrailingZerosFromSkipsClearBit(x, k);
    }
  }

  /** Every bit below the trailing-zero count is clear (all of them for zero). */
  lemma TrailingZerosClearBelow(x: bv32)
    ensures x & LowMask(TrailingZeros(x)) == 0
  {
    TrailingZerosFromClearBelow(x, 0);
  }

  /** Only zero has 32 trailing zeros. */
  lemma TrailingZerosOfZero(x: bv32)
    ensures TrailingZeros(x) == 32 <==> x == 0
  {
    TrailingZerosClearBelow(x);
  }

  /** 2^k has bit k set and no other. */
  lemma BitsOfPower(k: bv32, j: bv32)
    requires k < 32 && j < 32
    ensures Bit(1 << k, j) <==> j == k
  {
  }

  /** The single-bit word 2^k has k trailing zeros. */
  lemma TrailingZerosOfPower(k: bv32)
    requires k < 32
    ensures TrailingZeros(1 << k) == k
  {
    var n := TrailingZeros(1 << k);
    TrailingZerosClearBelow(1 << k);
    BitsOfPower(k, n);
  }

}

=== FILE: buffers.dfy ===
/** The slot allocator `BufferManager` of src/buffers.rs: stable integer slots
    handed out to entities, a deque of freed slots, and the dirty range that the
    next flush uploads. GPU transfers are reduced to the `Upload` they perform. */
module Buffers {
  import opened Wrappers
  import opened Seqs

  /** `usize::MAX` and `usize::MIN`, the sentinels of an empty write range. */
  const USIZE_MAX: nat := 0xFFFF_FFFF_FFFF_FFFF
  const USIZE_MIN: nat := 0

  /** `flush` grows the buffer in steps of this many elements. */
  const RESERVE_STEP: nat := 1024

  /** `BufferManager<T>`. The value of slot `i` lives at `buffer[i + 1]`; `buffer[0]`
      is a placeholder so the buffer is never empty. `freeIndices` is a deque whose
      front is its first element. `capacity` is the element count of the GPU buffer. */
  datatype Manager<T> = Manager(
    buffer: seq<T>,
    capacity: nat,
    nextIndex: nat,
    freeIndices: seq<nat>,
    writeMin: nat,
    writeMax: nat)

  /** What a flush transfers to the GPU. */
  datatype Upload =
    | NoUpload
    | WholeBuffer(len: nat)
    | Range(start: nat, end: nat)

  /** `RawBufferVec::reserve`: the capacity becomes the requested one when that is larger. */
  function Reserve(capacity: nat, requested: nat): (c: nat)
    ensures c >= capacity && c >= requested
    ensures c == capacity || c == requested
  {
    if requested <= capacity then capacity else requested
  }

  /** `((n as f32 / 1024.0).ceil() as usize) * 1024`, computed exactly. */
  function ReserveSize(n: nat): (r: nat)
    ensures r % RESERVE_STEP == 0
    ensures n <= r < n + RESERVE_STEP
  {
    ((n + RESERVE_STEP - 1) / RESERVE_STEP) * RESERVE_STEP
  }

  /** Shape every manager keeps: each slot below `nextIndex` and each queued free
      slot has a place in the buffer. */
  predicate Inv<T>(m: Manager<T>)
  {
    && |m.buffer| >= m.nextIndex + 1
    && (forall k :: 0 <= k < |m.freeIndices| ==> m.freeIndices[k] < |m.buffer|)
  }

  /** The tight shape: one buffer entry per slot ever handed out plus the
      placeholder, and only handed-out slots queued as free. */
  predicate Valid<T>(m: Manager<T>)
  {
    && |m.buffer| == m.nextIndex + 1
    && (forall k :: 0 <= k < |m.freeIndices| ==> m.freeIndices[k] < m.nextIndex)
  }

  /** Nothing written since the last flush. */
  predicate RangeEmpty<T>(m: Manager<T>)
  {
    m.writeMin == USIZE_MAX && m.writeMax == USIZE_MIN
  }

  /** The write range is empty, or a non-empty span of real slots that never
      includes the placeholder. */
  predicate RangeValid<T>(m: Manager<T>)
  {
    RangeEmpty(m) || 1 <= m.writeMin <= m.writeMax < |m.buffer|
  }

  /** `BufferManager::new`: the placeholder alone, no slot handed out, nothing
      free, nothing to write. The initial upload of the placeholder sizes the GPU
      buffer to one element. */
  function New<T>(placeholder: T): (m: Manager<T>)
    ensures m.buffer == [placeholder] && m.capacity == 1
    ensures m.nextIndex == 0 && m.freeIndices == []
    ensures RangeEmpty(m) && Valid(m) && Inv(m) && RangeValid(m)
  {
    Manager([placeholder], Reserve(0, 1), 0, [], USIZE_MAX, USIZE_MIN)
  }

  /** `new_index`: the slot at the back of the free deque if there is one,
      otherwise a brand-new slot `nextIndex`, which is then advanced. */
  function NewIndex<T>(m: Manager<T>): (res: (Manager<T>, nat))
    ensures |m.freeIndices| > 0 ==>
      && res.1 == m.freeIndices[|m.freeIndices| - 1]
      && res.0 == m.(freeIndices := m.freeIndices[..|m.freeIndices| - 1])
    ensures |m.freeIndices| == 0 ==> res.1 == m.nextIndex && res.0 == m.(nextIndex := m.nextIndex + 1)
    ensures Valid(m) ==> res.1 < res.0.nextIndex
  {
    if |m.freeIndices| > 0 then
      var last := |m.freeIndices| - 1;
      (m.(freeIndices := m.freeIndices[..last]), m.freeIndices[last])
    else
      (m.(nextIndex := m.nextIndex + 1), m.nextIndex)
  }

  /** `set_value`: keeps the caller's slot when it is below `nextIndex`, otherwise
      allocates one; stores the value at slot + 1 (appending when that is the end
      of the buffer) and widens the write range to cover it. */
  function SetValue<T>(m: Manager<T>, value: T, index: Option<nat>): (res: (Manager<T>, nat))
    requires Inv(m) && RangeValid(m)
    requires |m.buffer| < USIZE_MAX
    ensures var (m', i) := res;
      && (index.Some? && index.value < m.nextIndex ==>
            i == index.value && m'.freeIndices == m.freeIndices && m'.nextIndex == m.nextIndex)
      && (!(index.Some? && index.value < m.nextIndex) ==>
            (m'.freeIndices, m'.nextIndex, i) == (NewIndex(m).0.freeIndices, NewIndex(m).0.nextIndex, NewIndex(m).1))
      && |m'.buffer| == (if i + 1 < |m.buffer| then |m.buffer| else |m.buffer| + 1)
      && m'.buffer[i + 1] == value
      && (forall j :: 0 <= j < |m.buffer| && j != i + 1 ==> m'.buffer[j] == m.buffer[j])
      && m'.writeMin <= i + 1 <= m'.writeMax
      && (RangeEmpty(m) ==> m'.writeMin == i + 1 == m'.writeMax)
      && (!RangeEmpty(m) ==> m'.writeMin == MinNat(m.writeMin, i + 1) && m'.writeMax == MaxNat(m.writeMax, i + 1))
      && m'.capacity == m.capacity
      && Inv(m') && RangeValid(m')
      && (Valid(m) ==> Valid(m') && i < m'.nextIndex)
  {
    var (m1, i) :=
      match index
      case None => NewIndex(m)
      case Some(i) => if i < m.nextIndex then (m, i) else NewIndex(m);
    var buffer := if i + 1 >= |m1.buffer| then m1.buffer + [value] else m1.buffer[i + 1 := value];
    (m1.(buffer := buffer, writeMin := MinNat(m1.writeMin, i + 1), writeMax := MaxNat(m1.writeMax, i + 1)), i)
  }

  function MinNat(a: nat, b: nat): (c: nat)
    ensures c <= a && c <= b && (c == a || c == b)
  {
    if a <= b then a else b
  }

  function MaxNat(a: nat, b: nat): (c: nat)
    ensures c >= a && c >= b && (c == a || c == b)
  {
    if a >= b then a else b
  }

  /** Whether `flush` throws the manager away: more than half of the capacity it
      has after the upload is free slots. */
  predicate FlushResets<T>(m: Manager<T>)
  {
    |m.freeIndices| > FlushedCapacity(m) / 2
  }

  /** `flush`: uploads the write range (or the whole buffer, after growing the GPU
      buffer to a multiple of 1024 elements, when the range reaches past its end),
      rebuilds the manager from scratch when more than half the capacity is free
      slots, and empties the write range. The third component tells whether the
      rebuild happened: the upload then went to the GPU buffer that was dropped,
      and the new one holds the placeholder alone. */
  function Flush<T>(m: Manager<T>): (res: (Manager<T>, Upload, bool))
    requires Inv(m)
    ensures var (m', upload, reset) := res;
      && RangeEmpty(m')
      && (reset <==> FlushResets(m))
      && (m.writeMin == USIZE_MAX ==> upload == NoUpload)
      && (m.writeMin != USIZE_MAX && m.writeMax < m.capacity ==> upload == Range(m.writeMin, m.writeMax + 1))
      && (m.writeMin != USIZE_MAX && m.writeMax >= m.capacity ==> upload == WholeBuffer(|m.buffer|))
      && (upload.WholeBuffer? ==> FlushedCapacity(m) >= ReserveSize(m.writeMax + 1) > m.writeMax)
      && (reset ==> m' == New(m.buffer[0]))
      && (!reset ==>
            m' == m.(capacity := FlushedCapacity(m), writeMin := USIZE_MAX, writeMax := USIZE_MIN))
      && Inv(m') && RangeValid(m') && (Valid(m) ==> Valid(m'))
  {
    var upload :=
      if m.writeMin != USIZE_MAX then
        if m.writeMax >= m.capacity then WholeBuffer(|m.buffer|)
        else Range(m.writeMin, m.writeMax + 1)
      else NoUpload;
    var written := m.(capacity := FlushedCapacity(m));
    var reset := |written.freeIndices| > written.capacity / 2;
    var kept := if reset then New(m.buffer[0]) else written;
    (kept.(writeMin := USIZE_MAX, writeMax := USIZE_MIN), upload, reset)
  }

  /** The GPU capacity once the pending range is written: unchanged when the range
      fits, otherwise reserved up to the next multiple of 1024 past `writeMax` and
      then to the buffer's length by the full upload. */
  function FlushedCapacity<T>(m: Manager<T>): (c: nat)
    ensures c >= m.capacity
  {
    if m.writeMin != USIZE_MAX && m.writeMax >= m.capacity then
      Reserve(Reserve(m.capacity, ReserveSize(m.writeMax + 1)), |m.buffer|)
    else m.capacity
  }

  /** A range upload only ever covers real slots of the buffer. */
  lemma FlushWritesWithinBuffer<T>(m: Manager<T>)
    requires Inv(m) && RangeValid(m)
    ensures Flush(m).1.Range? ==> 1 <= Flush(m).1.start < Flush(m).1.end <= |m.buffer|
    ensures Flush(m).1.WholeBuffer? ==> FlushedCapacity(m) >= |m.buffer|
  {
  }

  /** `free_index` as written: any index below the buffer length is queued at the
      front of the free deque; larger ones are ignored. */
  function FreeIndex<T>(m: Manager<T>, index: nat): (m': Manager<T>)
    ensures index >= |m.buffer| ==> m' == m
    ensures index < |m.buffer| ==> m' == m.(freeIndices := [index] + m.freeIndices)
    ensures Inv(m) ==> Inv(m')
    ensures Valid(m) && index != m.nextIndex ==> Valid(m')
  {
    if index >= |m.buffer| then m
    else m.(freeIndices := [index] + m.freeIndices)
  }

  /** Freeing the one slot that was never handed out (`nextIndex`, which the guard
      admits because of the placeholder) makes the manager hand slot 0 to two
      entities in a row, the second value overwriting the first. */
  lemma FreeUnallocatedSlotIsHandedOutTwice<T>(placeholder: T, a: T, b: T)
    ensures var m1 := FreeIndex(New(placeholder), 0);
            var (m2, i) := SetValue(m1, a, None);
            var (m3, j) := SetValue(m2, b, None);
            i == 0 && j == 0 && m3.buffer[1] == b
  {
    var m1 := FreeIndex(New(placeholder), 0);
    assert m1.freeIndices == [0];
    var (m2, i) := SetValue(m1, a, None);
    assert i == 0 && m2.nextIndex == 0 && m2.freeIndices == [];
  }

  /** `free_index` with the guard the placeholder calls for: only slots already
      handed out (below `nextIndex`) are queued. */
  function FreeIndexChecked<T>(m: Manager<T>, index: nat): (m': Manager<T>)
    ensures index >= m.nextIndex ==> m' == m
    ensures index < m.nextIndex ==> m' == m.(freeIndices := [index] + m.freeIndices)
    ensures Inv(m) ==> Inv(m')
    ensures Valid(m) ==> Valid(m')
  {
    if index >= m.nextIndex then m
    else m.(freeIndices := [index] + m.freeIndices)
  }

  /** No slot queued twice. */
  predicate Distinct(s: seq<nat>)
  {
    forall i, j :: 0 <= i < j < |s| ==> s[i] != s[j]
  }

  /** With the corrected guard, two allocations in a row never return the same
      slot, as long as no slot was queued twice. */
  lemma AllocationsDistinct<T>(m: Manager<T>)
    requires Valid(m) && Distinct(m.freeIndices)
    ensures NewIndex(m).1 != NewIndex(NewIndex(m).0).1
  {
    var (m1, i) := NewIndex(m);
    if |m.freeIndices| > 1 {
      var n := |m.freeIndices|;
      assert m1.freeIndices[n - 2] == m.freeIndices[n - 2];
    }
  }

  /** The same scenario as above, with the corrected guard: two different slots. */
  lemma CheckedFreeHandsOutDistinctSlots<T>(placeholder: T, a: T, b: T)
    ensures var m1 := FreeIndexChecked(New(placeholder), 0);
            var (m2, i) := SetValue(m1, a, None);
            var (m3, j) := SetValue(m2, b, None);
            i == 0 && j == 1 && m3.buffer[1] == a && m3.buffer[2] == b
  {
    var m1 := FreeIndexChecked(New(placeholder), 0);
    assert m1 == New(placeholder);
    var (m2, i) := SetValue(m1, a, None);
    assert i == 0 && m2.nextIndex == 1 && m2.buffer == [placeholder, a];
  }

  /** Frees `xs` one after another with `free_index`. */
  function FreeMany<T>(m: Manager<T>, xs: seq<nat>): (m': Manager<T>)
    ensures Inv(m) ==> Inv(m')
    ensures m'.buffer == m.buffer && m'.nextIndex == m.nextIndex
    decreases |xs|
  {
    if |xs| == 0 then m else FreeMany(FreeIndex(m, xs[0]), xs[1..])
  }

  /** Allocates `k` slots one after another, collecting them in order. */
  function AllocateMany<T>(m: Manager<T>, k: nat): (res: (Manager<T>, seq<nat>))
    ensures |res.1| == k
    decreases k
  {
    if k == 0 then (m, [])
    else
      var (m1, i) := NewIndex(m);
      var (m2, rest) := AllocateMany(m1, k - 1);
      (m2, [i] + rest)
  }

  /** Freeing pushes each slot inside the buffer at the front of the deque. */
  lemma {:induction false} FreeManyPushesFront<T>(m: Manager<T>, xs: seq<nat>)
    requires forall k :: 0 <= k < |xs| ==> xs[k] < |m.buffer|
    ensures FreeMany(m, xs).freeIndices == Reverse(xs) + m.freeIndices
    decreases |xs|
  {
    if |xs| > 0 {
      var m1 := FreeIndex(m, xs[0]);
      FreeManyPushesFront(m1, xs[1..]);
      assert xs == [xs[0]] + xs[1..];
      ReverseEnds(xs[0], xs[1..]);
    }
  }

  /** Allocation pops from the back, so a deque holding `reverse(q)` yields `q`. */
  lemma {:induction false} AllocationPopsInOrder<T>(m: Manager<T>, q: seq<nat>)
    requires m.freeIndices == Reverse(q)
    ensures AllocateMany(m, |q|).1 == q
    decreases |q|
  {
    if |q| > 0 {
      assert q == [q[0]] + q[1..];
      ReverseEnds(q[0], q[1..]);
      var (m1, i) := NewIndex(m);
      assert i == q[0];
      assert m1.freeIndices == Reverse(q[1..]);
      AllocationPopsInOrder(m1, q[1..]);
    }
  }

  /** Freed slots are reused first-in first-out: with no slot queued before,
      freeing `xs` and then allocating |xs| slots returns exactly `xs`, in order. */
  lemma FreedSlotsReusedFifo<T>(m: Manager<T>, xs: seq<nat>)
    requires m.freeIndices == []
    requires forall k :: 0 <= k < |xs| ==> xs[k] < |m.buffer|
    ensures AllocateMany(FreeMany(m, xs), |xs|).1 == xs
  {
    FreeManyPushesFront(m, xs);
    assert Reverse(xs) + [] == Reverse(xs);
    AllocationPopsInOrder(FreeMany(m, xs), xs);
  }
}

=== FILE: containment.dfy ===
/** The even-odd point-in-polygon test `point_inside_poly` (src/occluders.rs:294-316). */
module Containment {
  import opened Seqs
  import opened Geometry
  import opened Winding
  import opened Occluders

  /** Where the line through a and b meets the horizontal line through p. */
  function XIntersection(p: Vec2, a: Vec2, b: Vec2): real
    requires a.y != b.y
  {
    (p.y - a.y) * (b.x - a.x) / (b.y - a.y) + a.x
  }

  /** Whether edge (a, b) flips the parity of p: p's height lies in the half-open
      span (lowest, highest] of the edge, p is not right of the edge's rightmost
      end, and the edge is vertical or meets p's horizontal at or right of p. */
  predicate Toggles(p: Vec2, a: Vec2, b: Vec2)
  {
    && p.y > Min(a.y, b.y)
    && p.y <= Max(a.y, b.y)
    && p.x <= Max(a.x, b.x)
    && (a.x == b.x || p.x <= XIntersection(p, a, b))
  }

  /** Number of consecutive pairs of the chain `s` that flip the parity of p. */
  function Crossings(p: Vec2, s: seq<Vec2>): nat
  {
    if |s| < 2 then 0
    else Crossings(p, s[..|s| - 1]) + (if Toggles(p, s[|s| - 2], s[|s| - 1]) then 1 else 0)
  }

  /** The loop closed by its first vertex, as `point_inside_poly` walks it. */
  function Closed(poly: seq<Vec2>): seq<Vec2>
    requires |poly| > 0
  {
    poly + [poly[0]]
  }

  /** `point_inside_poly`: false outside `rect`; inside it, true exactly when an odd
      number of the closed outline's edges flip the parity of p. */
  method PointInsidePoly(p: Vec2, poly: seq<Vec2>, rect: Rect) returns (inside: bool)
    requires RectContains(rect, p) ==> |poly| > 0
    ensures !RectContains(rect, p) ==> !inside
    ensures RectContains(rect, p) ==> (inside <==> Crossings(p, Closed(poly)) % 2 == 1)
  {
    if !RectContains(rect, p) {
      return false;
    }
    var closed := poly + [poly[0]];
    inside := false;
    var i := 1;
    while i < |closed|
      invariant 1 <= i <= |closed|
      invariant inside <==> Crossings(p, closed[..i]) % 2 == 1
    {
      CrossingsPrefix(p, closed, i);
      var toggles := EdgeToggles(p, closed[i - 1], closed[i]);
      if toggles {
        inside := !inside;
      }
      i := i + 1;
    }
    assert closed[..|closed|] == closed;
  }

  /** The per-edge step of `point_inside_poly`. */
  method EdgeToggles(p: Vec2, a: Vec2, b: Vec2) returns (toggles: bool)
    ensures toggles == Toggles(p, a, b)
    ensures a.y == b.y ==> !toggles
  {
    toggles := false;
    if p.y > Min(a.y, b.y) && p.y <= Max(a.y, b.y) && p.x <= Max(a.x, b.x) {
      var xIntersection := XIntersection(p, a, b);
      if a.x == b.x || p.x <= xIntersection {
        toggles := true;
      }
    }
  }

  /** Extending a prefix of the chain by one vertex adds the crossing of the new edge. */
  lemma CrossingsPrefix(p: Vec2, s: seq<Vec2>, i: nat)
    requires 1 <= i < |s|
    ensures Crossings(p, s[..i + 1]) == Crossings(p, s[..i]) + (if Toggles(p, s[i - 1], s[i]) then 1 else 0)
  {
    var prefix := s[..i + 1];
    assert prefix[..i] == s[..i];
  }

  /** An edge with equal end heights never flips the parity, which is why the
      division in the test never meets a zero denominator. */
  lemma FlatEdgeNeverToggles(p: Vec2, a: Vec2, b: Vec2)
    requires a.y == b.y
    ensures !Toggles(p, a, b)
  {
  }

  /** A vertical edge flips the parity whenever p's height is in its span and p is
      not right of it, without consulting the intersection. */
  lemma VerticalEdgeToggles(p: Vec2, a: Vec2, b: Vec2)
    requires a.x == b.x
    ensures Toggles(p, a, b) <==> Min(a.y, b.y) < p.y <= Max(a.y, b.y) && p.x <= a.x
  {
  }

  /** The crossing test does not depend on the direction an edge is walked. */
  lemma TogglesSymmetric(p: Vec2, a: Vec2, b: Vec2)
    ensures Toggles(p, a, b) == Toggles(p, b, a)
  {
    if a.y != b.y {
      var t := (p.y - a.y) / (b.y - a.y);
      var u := (p.y - b.y) / (a.y - b.y);
      DivIsQuotient(p.y - a.y, b.y - a.y);
      DivIsQuotient(p.y - b.y, a.y - b.y);
      assert (1.0 - t) * (a.y - b.y) == p.y - b.y;
      ProductZero(u - (1.0 - t), a.y - b.y);
      MulDiv(p.y - a.y, b.x - a.x, b.y - a.y);
      MulDiv(p.y - b.y, a.x - b.x, a.y - b.y);
      assert XIntersection(p, a, b) == t * (b.x - a.x) + a.x;
      assert XIntersection(p, b, a) == (1.0 - t) * (a.x - b.x) + b.x;
    }
  }

  lemma DivIsQuotient(q: real, d: real)
    requires d != 0.0
    ensures (q / d) * d == q
  {
  }

  lemma ProductZero(x: real, e: real)
    requires e != 0.0 && x * e == 0.0
    ensures x == 0.0
  {
  }

  lemma MulDiv(q: real, w: real, d: real)
    requires d != 0.0
    ensures q * w / d == (q / d) * w
  {
    var z := q / d;
    DivIsQuotient(q, d);
    assert (z * w) * d == q * w;
    DivIsQuotient(q * w, d);
    ProductZero(q * w / d - z * w, d);
  }

  /** Counting from the front: the first pair, then the rest of the chain. */
  lemma {:induction false} CrossingsCons(p: Vec2, x: Vec2, s: seq<Vec2>)
    requires |s| >= 1
    ensures Crossings(p, [x] + s) == (if Toggles(p, x, s[0]) then 1 else 0) + Crossings(p, s)
  {
    if |s| == 1 {
      assert ([x] + s)[..1] == [x];
    } else {
      var s' := s[..|s| - 1];
      CrossingsCons(p, x, s');
      assert ([x] + s)[..|s|] == [x] + s';
      assert s'[0] == s[0];
    }
  }

  /** Walking a chain backwards crosses the same number of edges. */
  lemma {:induction false} CrossingsReverse(p: Vec2, s: seq<Vec2>)
    ensures Crossings(p, Reverse(s)) == Crossings(p, s)
  {
    if |s| >= 2 {
      var s' := s[..|s| - 1];
      var y := s[|s| - 1];
      assert s == s' + [y];
      assert Reverse(s) == [y] + Reverse(s');
      CrossingsReverse(p, s');
      CrossingsCons(p, y, Reverse(s'));
      TogglesSymmetric(p, y, s'[|s'| - 1]);
    }
  }

  /** Starting a closed walk one vertex later crosses the same edges. */
  lemma CrossingsRotate(p: Vec2, x: Vec2, m: seq<Vec2>)
    requires |m| >= 1
    ensures Crossings(p, Closed([x] + m)) == Crossings(p, Closed(m + [x]))
  {
    assert Closed([x] + m) == [x] + (m + [x]);
    CrossingsCons(p, x, m + [x]);
    var c := Closed(m + [x]);
    assert c == (m + [x]) + [m[0]];
    assert c[..|c| - 1] == m + [x];
  }

  /** The even-odd count of a loop does not depend on its winding, so the
      reversal `normalize_vertices` may apply never moves a point in or out. */
  lemma CrossingsIndependentOfWinding(p: Vec2, poly: seq<Vec2>)
    requires |poly| > 0
    ensures Crossings(p, Closed(Reverse(poly))) == Crossings(p, Closed(poly))
  {
    CrossingsReverse(p, Closed(poly));
    var x := poly[0];
    ReverseEnds(x, poly);
    if |poly| >= 2 {
      var r' := Reverse(poly[1..]);
      assert poly == [x] + poly[1..];
      ReverseEnds(x, poly[1..]);
      assert Reverse(poly) == r' + [x];
      assert Reverse(Closed(poly)) == [x] + r' + [x];
      assert Closed([x] + r') == [x] + r' + [x];
      CrossingsRotate(p, x, r');
    } else {
      assert poly == [x];
      assert Reverse(poly) == poly;
    }
  }

  /** Normalising a loop never changes the even-odd verdict of any point. */
  lemma NormalizeKeepsInside(p: Vec2, v: seq<Vec2>)
    requires |v| >= 2
    ensures Crossings(p, Closed(NormalizeVertices(v).value)) % 2 == Crossings(p, Closed(v)) % 2
  {
    if NormalizeVertices(v).value != v {
      CrossingsIndependentOfWinding(p, v);
    }
  }
}

=== FILE: geometry.dfy ===
/** Plane geometry over exact reals: points, the orientation test of
    src/occluders.rs and the rigid motions that place a shape in the world. */
module Geometry {

  /** A point or vector of the plane (bevy's `Vec2`, with exact coordinates). */
  datatype Vec2 = Vec2(x: real, y: real)

  /** A 2D rotation given by its cosine and sine (bevy's `Rot2`). */
  datatype Rot2 = Rot2(cos: real, sin: real)

  /** Which side of the directed line a->b a point lies on. */
  datatype Orientation = Touch | Left | Right

  /** Twice the signed area of the triangle (a, b, p). */
  function Cross(a: Vec2, b: Vec2, p: Vec2): real
  {
    (b.x - a.x) * (p.y - a.y) - (p.x - a.x) * (b.y - a.y)
  }

  /** The orientation test: the sign of the cross product of b - a and p - a. */
  function Orient(a: Vec2, b: Vec2, p: Vec2): (o: Orientation)
    ensures o == Left <==> Cross(a, b, p) > 0.0
    ensures o == Right <==> Cross(a, b, p) < 0.0
    ensures o == Touch <==> Cross(a, b, p) == 0.0
  {
    var res := Cross(a, b, p);
    if res < 0.0 then Right
    else if res > 0.0 then Left
    else Touch
  }

  /** The mirror orientation: Left and Right exchanged, Touch kept. */
  function Flip(o: Orientation): Orientation
  {
    match o
    case Left => Right
    case Right => Left
    case Touch => Touch
  }

  lemma FlipInvolutive(o: Orientation)
    ensures Flip(Flip(o)) == o
  {
  }

  /** Swapping the endpoints of the directed line swaps Left and Right. */
  lemma OrientSwap(a: Vec2, b: Vec2, p: Vec2)
    ensures Orient(b, a, p) == Flip(Orient(a, b, p))
  {
    CrossSwap(a, b, p);
  }

  lemma CrossSwap(a: Vec2, b: Vec2, p: Vec2)
    ensures Cross(b, a, p) == -Cross(a, b, p)
  {
    var u := b.x - a.x;
    var v := b.y - a.y;
    var s := p.x - a.x;
    var t := p.y - a.y;
    assert Cross(a, b, p) == u * t - s * v;
    assert p.y - b.y == t - v;
    assert p.x - b.x == s - u;
    assert Cross(b, a, p) == (-u) * (t - v) - (s - u) * (-v);
    assert (-u) * (t - v) - (s - u) * (-v) == -(u * t) + u * v + s * v - u * v;
  }

  /** Reading a triple of vertices backwards mirrors its turn. */
  lemma OrientReverse(a: Vec2, b: Vec2, c: Vec2)
    ensures Orient(c, b, a) == Flip(Orient(a, b, c))
  {
    var u := b.x - a.x;
    var v := b.y - a.y;
    var s := c.x - a.x;
    var t := c.y - a.y;
    assert Cross(a, b, c) == u * t - s * v;
    assert Cross(c, b, a) == (u - s) * (-t) - (-s) * (v - t);
    assert (u - s) * (-t) - (-s) * (v - t) == -(u * t) + s * t + s * v - s * t;
  }

  /** `f32::min` and `f32::max` on exact reals. */
  function Min(a: real, b: real): real
  {
    if a <= b then a else b
  }

  function Max(a: real, b: real): real
  {
    if a >= b then a else b
  }

  /** Squared Euclidean length. */
  function NormSq(v: Vec2): real
  {
    v.x * v.x + v.y * v.y
  }

  function Sub(a: Vec2, b: Vec2): Vec2
  {
    Vec2(a.x - b.x, a.y - b.y)
  }

  /** A rotation proper: its cosine and sine lie on the unit circle. */
  predicate IsUnit(rot: Rot2)
  {
    rot.cos * rot.cos + rot.sin * rot.sin == 1.0
  }

  /** `rot * v + pos`: rotate about the origin, then translate. The rotation
      turns counter-clockwise: the x axis goes to (cos, sin) and the y axis to
      (-sin, cos). */
  function Place(v: Vec2, pos: Vec2, rot: Rot2): (p: Vec2)
    ensures v == Vec2(1.0, 0.0) ==> p == Vec2(pos.x + rot.cos, pos.y + rot.sin)
    ensures v == Vec2(0.0, 1.0) ==> p == Vec2(pos.x - rot.sin, pos.y + rot.cos)
    ensures v == Vec2(0.0, 0.0) ==> p == pos
    ensures rot == Rot2(1.0, 0.0) ==> p == Vec2(v.x + pos.x, v.y + pos.y)
  {
    Vec2(rot.cos * v.x - rot.sin * v.y + pos.x, rot.sin * v.x + rot.cos * v.y + pos.y)
  }

  /** Placement is additive once the translation is taken off. */
  lemma PlaceIsAdditive(a: Vec2, b: Vec2, pos: Vec2, rot: Rot2)
    ensures Sub(Place(Vec2(a.x + b.x, a.y + b.y), pos, rot), pos)
         == Vec2(Sub(Place(a, pos, rot), pos).x + Sub(Place(b, pos, rot), pos).x,
                 Sub(Place(a, pos, rot), pos).y + Sub(Place(b, pos, rot), pos).y)
  {
    var c, s := rot.cos, rot.sin;
    assert c * (a.x + b.x) == c * a.x + c * b.x;
    assert s * (a.y + b.y) == s * a.y + s * b.y;
    assert s * (a.x + b.x) == s * a.x + s * b.x;
    assert c * (a.y + b.y) == c * a.y + c * b.y;
  }

  /** Placement scales with its vector once the translation is taken off. With
      additivity and the images of the two axes this fixes it completely. */
  lemma PlaceIsHomogeneous(a: Vec2, k: real, pos: Vec2, rot: Rot2)
    ensures Sub(Place(Vec2(k * a.x, k * a.y), pos, rot), pos)
         == Vec2(k * Sub(Place(a, pos, rot), pos).x, k * Sub(Place(a, pos, rot), pos).y)
  {
    var c, s := rot.cos, rot.sin;
    assert c * (k * a.x) == k * (c * a.x);
    assert s * (k * a.y) == k * (s * a.y);
    assert s * (k * a.x) == k * (s * a.x);
    assert c * (k * a.y) == k * (c * a.y);
  }

  /** Multiplying by a factor equal to one. */
  lemma TimesOne(u: real, w: real)
    requires u == 1.0
    ensures u * w == w
  {
  }

  /** A unit (cos, sin) pair keeps the squared length of the vector it turns. */
  lemma RotationKeepsNormSq(c: real, s: real, x: real, y: real)
    requires c * c + s * s == 1.0
    ensures (c * x - s * y) * (c * x - s * y) + (s * x + c * y) * (s * x + c * y) == x * x + y * y
  {
    var px, py := c * x - s * y, s * x + c * y;
    assert px * px == c * c * (x * x) - 2.0 * (c * s) * (x * y) + s * s * (y * y);
    assert py * py == s * s * (x * x) + 2.0 * (c * s) * (x * y) + c * c * (y * y);
    TimesOne(c * c + s * s, x * x);
    TimesOne(c * c + s * s, y * y);
  }

  /** Placing two points by the same rotation and translation keeps their distance. */
  lemma PlaceIsRigid(a: Vec2, b: Vec2, pos: Vec2, rot: Rot2)
    requires IsUnit(rot)
    ensures NormSq(Sub(Place(a, pos, rot), Place(b, pos, rot))) == NormSq(Sub(a, b))
  {
    var c, s := rot.cos, rot.sin;
    var dx, dy := a.x - b.x, a.y - b.y;
    var d := Sub(Place(a, pos, rot), Place(b, pos, rot));
    assert d.x == c * dx - s * dy;
    assert d.y == s * dx + c * dy;
    RotationKeepsNormSq(c, s, dx, dy);
  }

  /** Under a unit rotation a placed point lies as far from `pos` as the vector
      is long. */
  lemma PlaceKeepsLength(v: Vec2, pos: Vec2, rot: Rot2)
    requires IsUnit(rot)
    ensures NormSq(Sub(Place(v, pos, rot), pos)) == NormSq(v)
  {
    PlaceIsRigid(v, Vec2(0.0, 0.0), pos, rot);
    assert Sub(v, Vec2(0.0, 0.0)) == v;
  }
}

=== FILE: occluders.dfy ===
/** Occluder shapes, their bounding rects and the occluder builders of
    src/occluders.rs. */
module Occluders {
  import opened Wrappers
  import opened Seqs
  import opened Geometry
  import opened Winding

  datatype Vec3 = Vec3(x: real, y: real, z: real)

  /** An sRGB colour with alpha. */
  datatype Color = Srgba(red: real, green: real, blue: real, alpha: real)

  const BLACK: Color := Srgba(0.0, 0.0, 0.0, 1.0)

  /** A sprite entity an occluder may be told to ignore. */
  type Entity = nat

  /** An axis-aligned rect. `Box` holds its corners. `Square(halfSq)` is the square
      centred on the origin whose half-side is the square root of `halfSq`; the
      square root itself is never formed, containment compares squares instead. */
  datatype Rect = Box(min: Vec2, max: Vec2) | Square(halfSq: real)

  /** `Rect::contains`: closed on every side. */
  predicate RectContains(r: Rect, p: Vec2): (inside: bool)
    ensures inside && r.Box? ==> r.min.x <= r.max.x && r.min.y <= r.max.y
    ensures r.Square? && NormSq(p) <= r.halfSq ==> inside
    ensures r.Square? && inside ==> NormSq(p) <= 2.0 * r.halfSq
  {
    match r
    case Box(lo, hi) => lo.x <= p.x <= hi.x && lo.y <= p.y <= hi.y
    case Square(m) => p.x * p.x <= m && p.y * p.y <= m
  }

  /** A rect whose min corner is the negated max corner, on the diagonal. */
  predicate IsCentredSquare(r: Rect)
  {
    match r
    case Box(lo, hi) => lo == Vec2(-hi.x, -hi.y) && hi.x == hi.y
    case Square(m) => m >= 0.0
  }

  /** The box centred on the origin whose half-side is `half`. */
  function CentredBox(half: real): (r: Rect)
    ensures r.Box? && IsCentredSquare(r) && r.max.x == half
  {
    Box(Vec2(-half, -half), Vec2(half, half))
  }

  /** `Occluder2dShape`. */
  datatype Shape =
    | Polygon(vertices: seq<Vec2>)
    | Polyline(vertices: seq<Vec2>)
    | RoundRectangle(width: real, height: real, radius: real)

  /** Vertex shapes must hold a vertex: their rect and outline read the first one. */
  predicate HasVertices(s: Shape)
  {
    (s.Polygon? || s.Polyline?) ==> |s.vertices| > 0
  }

  /** `Occluder2d`. */
  datatype Occluder = Occluder(
    shape: Shape,
    rect: Rect,
    color: Color,
    opacity: real,
    ignoredSprites: seq<Entity>,
    zSorting: bool,
    offset: Vec3)

  /** The largest squared length among the vertices (the `max_by` in `vertices_rect`). */
  function MaxNormSq(v: seq<Vec2>): (m: real)
    requires |v| > 0
    ensures forall i :: 0 <= i < |v| ==> NormSq(v[i]) <= m
    ensures exists i :: 0 <= i < |v| && NormSq(v[i]) == m
  {
    if |v| == 1 then NormSq(v[0])
    else
      var rest := MaxNormSq(v[1..]);
      if NormSq(v[0]) > rest then NormSq(v[0]) else rest
  }

  lemma SquareBelowNormSq(p: Vec2)
    ensures p.x * p.x <= NormSq(p) && p.y * p.y <= NormSq(p) && NormSq(p) >= 0.0
  {
  }

  /** `vertices_rect`: the origin-centred square whose half-side is the largest
      vertex length; it holds every vertex, and some vertex reaches its size. */
  function VerticesRect(v: seq<Vec2>): (r: Rect)
    requires |v| > 0
    ensures r.Square? && IsCentredSquare(r)
    ensures forall i :: 0 <= i < |v| ==> RectContains(r, v[i])
    ensures forall i :: 0 <= i < |v| ==> NormSq(v[i]) <= r.halfSq
    ensures exists i :: 0 <= i < |v| && NormSq(v[i]) == r.halfSq
  {
    var m := MaxNormSq(v);
    forall i | 0 <= i < |v|
      ensures RectContains(Square(m), v[i])
    {
      SquareBelowNormSq(v[i]);
    }
    SquareBelowNormSq(v[0]);
    Square(m)
  }

  /** The bounding rect `from_shape` derives for a shape. */
  function ShapeRect(shape: Shape): (r: Rect)
    requires HasVertices(shape)
    ensures IsCentredSquare(r)
    ensures shape.RoundRectangle? ==>
      r == CentredBox(Max(shape.width, shape.height) / 2.0 + shape.radius)
    ensures !shape.RoundRectangle? ==> r.Square?
    ensures !shape.RoundRectangle? ==> forall i :: 0 <= i < |shape.vertices| ==> RectContains(r, shape.vertices[i])
    ensures !shape.RoundRectangle? ==> forall i :: 0 <= i < |shape.vertices| ==> NormSq(shape.vertices[i]) <= r.halfSq
    ensures !shape.RoundRectangle? ==> exists i :: 0 <= i < |shape.vertices| && NormSq(shape.vertices[i]) == r.halfSq
  {
    match shape
    case RoundRectangle(width, height, radius) =>
      Box(Vec2((-Max(width, height)) / 2.0 - radius, (-Max(width, height)) / 2.0 - radius),
          Vec2(Max(width, height) / 2.0 + radius, Max(width, height) / 2.0 + radius))
    case Polyline(vertices) => VerticesRect(vertices)
    case Polygon(vertices) => VerticesRect(vertices)
  }

  /** `Occluder2d::from_shape`: the shape with its bounding rect, fully opaque,
      black, z-sorted, ignoring no sprite and without offset. */
  function FromShape(shape: Shape): (o: Occluder)
    requires HasVertices(shape)
    ensures o.shape == shape && o.rect == ShapeRect(shape)
    ensures o.opacity == 1.0 && o.zSorting && o.color == BLACK
    ensures o.ignoredSprites == [] && o.offset == Vec3(0.0, 0.0, 0.0)
  {
    Occluder(shape, ShapeRect(shape), BLACK, 1.0, [], true, Vec3(0.0, 0.0, 0.0))
  }

  /** `Occluder2d::with_color`: a copy with only the colour replaced. */
  function WithColor(o: Occluder, color: Color): (r: Occluder)
    ensures r.color == color
    ensures r.shape == o.shape && r.rect == o.rect && r.opacity == o.opacity
    ensures r.ignoredSprites == o.ignoredSprites && r.zSorting == o.zSorting && r.offset == o.offset
  {
    o.(color := color)
  }

  /** `Occluder2d::with_opacity`: a copy with only the opacity replaced. */
  function WithOpacity(o: Occluder, opacity: real): (r: Occluder)
    ensures r.opacity == opacity
    ensures r.shape == o.shape && r.rect == o.rect && r.color == o.color
    ensures r.ignoredSprites == o.ignoredSprites && r.zSorting == o.zSorting && r.offset == o.offset
  {
    o.(opacity := opacity)
  }

  /** `Occluder2d::with_ignored_sprites`: a copy with only the ignored sprites replaced. */
  function WithIgnoredSprites(o: Occluder, sprites: seq<Entity>): (r: Occluder)
    ensures r.ignoredSprites == sprites
    ensures r.shape == o.shape && r.rect == o.rect && r.color == o.color
    ensures r.opacity == o.opacity && r.zSorting == o.zSorting && r.offset == o.offset
  {
    o.(ignoredSprites := sprites)
  }

  /** `Occluder2d::with_z_sorting`: a copy with only the z-sorting flag replaced. */
  function WithZSorting(o: Occluder, zSorting: bool): (r: Occluder)
    ensures r.zSorting == zSorting
    ensures r.shape == o.shape && r.rect == o.rect && r.color == o.color
    ensures r.opacity == o.opacity && r.ignoredSprites == o.ignoredSprites && r.offset == o.offset
  {
    o.(zSorting := zSorting)
  }

  /** `Occluder2d::with_offset`: a copy with only the offset replaced. */
  function WithOffset(o: Occluder, offset: Vec3): (r: Occluder)
    ensures r.offset == offset
    ensures r.shape == o.shape && r.rect == o.rect && r.color == o.color
    ensures r.opacity == o.opacity && r.ignoredSprites == o.ignoredSprites && r.zSorting == o.zSorting
  {
    o.(offset := offset)
  }

  /** Builders for different fields commute, and a later builder for the same
      field overrides an earlier one. */
  lemma BuildersCommute(o: Occluder, color: Color, opacity: real, sprites: seq<Entity>, z: bool, offset: Vec3,
                        color2: Color, opacity2: real, sprites2: seq<Entity>, z2: bool, offset2: Vec3)
    ensures WithOpacity(WithColor(o, color), opacity) == WithColor(WithOpacity(o, opacity), color)
    ensures WithIgnoredSprites(WithColor(o, color), sprites) == WithColor(WithIgnoredSprites(o, sprites), color)
    ensures WithZSorting(WithColor(o, color), z) == WithColor(WithZSorting(o, z), color)
    ensures WithOffset(WithColor(o, color), offset) == WithColor(WithOffset(o, offset), color)
    ensures WithIgnoredSprites(WithOpacity(o, opacity), sprites) == WithOpacity(WithIgnoredSprites(o, sprites), opacity)
    ensures WithZSorting(WithOpacity(o, opacity), z) == WithOpacity(WithZSorting(o, z), opacity)
    ensures WithOffset(WithOpacity(o, opacity), offset) == WithOpacity(WithOffset(o, offset), opacity)
    ensures WithZSorting(WithIgnoredSprites(o, sprites), z) == WithIgnoredSprites(WithZSorting(o, z), sprites)
    ensures WithOffset(WithIgnoredSprites(o, sprites), offset) == WithIgnoredSprites(WithOffset(o, offset), sprites)
    ensures WithOffset(WithZSorting(o, z), offset) == WithZSorting(WithOffset(o, offset), z)
    ensures WithColor(WithColor(o, color), color2) == WithColor(o, color2)
    ensures WithOpacity(WithOpacity(o, opacity), opacity2) == WithOpacity(o, opacity2)
    ensures WithIgnoredSprites(WithIgnoredSprites(o, sprites), sprites2) == WithIgnoredSprites(o, sprites2)
    ensures WithZSorting(WithZSorting(o, z), z2) == WithZSorting(o, z2)
    ensures WithOffset(WithOffset(o, offset), offset2) == WithOffset(o, offset2)
  {
  }

  /** A vertex loop closed by repeating its first vertex at the end. */
  predicate IsClosedLoopOf(stored: seq<Vec2>, loop: seq<Vec2>)
  {
    |loop| > 0 && |stored| == |loop| + 1 && stored[..|loop|] == loop && stored[|loop|] == loop[0]
  }

  /** `Occluder2d::polygon`: None for fewer than two vertices; otherwise a polygon
      storing the normalised loop closed by its first vertex. */
  function PolygonOccluder(v: seq<Vec2>): (r: Option<Occluder>)
    ensures r.None? <==> |v| < 2
    ensures r.Some? ==> r.value.shape.Polygon?
    ensures r.Some? ==> IsClosedLoopOf(r.value.shape.vertices, NormalizeVertices(v).value)
    ensures r.Some? ==> |r.value.shape.vertices| == |v| + 1
    ensures r.Some? ==> HasVertices(r.value.shape) && r.value == FromShape(r.value.shape)
  {
    match NormalizeVertices(v)
    case None => None
    case Some(loop) =>
      var stored := loop + [loop[0]];
      assert stored[..|loop|] == loop;
      Some(FromShape(Polygon(stored)))
  }

  /** A polygon built from a loop that is not concave is stored clockwise. */
  lemma PolygonIsClockwise(v: seq<Vec2>)
    requires |v| >= 3 && !IsConcave(v)
    ensures IsClockwise(PolygonOccluder(v).value.shape.vertices[..|v|])
  {
    NormalizeWinding(v);
  }

  /** The polyline outline walks the vertices forward and back again:
      `v ++ reverse(v)[1..]`. */
  function DoubledBack(v: seq<Vec2>): (w: seq<Vec2>)
    requires |v| >= 1
    ensures |w| == 2 * |v| - 1
    ensures IsPalindrome(w)
  {
    var w := v + Reverse(v)[1..];
    assert forall i :: 0 <= i < |v| ==> w[i] == v[i];
    assert forall i :: |v| <= i < |w| ==> w[i] == v[2 * |v| - 2 - i];
    w
  }

  /** `Occluder2d::polyline`: None for fewer than two vertices; otherwise a
      polyline storing the doubled-back outline, which normalisation leaves as
      it is. */
  function PolylineOccluder(v: seq<Vec2>): (r: Option<Occluder>)
    ensures r.None? <==> |v| < 2
    ensures r.Some? ==> r.value.shape == Polyline(v + Reverse(v)[1..])
    ensures r.Some? ==> IsPalindrome(r.value.shape.vertices) && |r.value.shape.vertices| == 2 * |v| - 1
    ensures r.Some? ==> HasVertices(r.value.shape) && r.value == FromShape(r.value.shape)
  {
    if |v| == 0 then None
    else
      var w := DoubledBack(v);
      NormalizePalindrome(w);
      match NormalizeVertices(w)
      case None => None
      case Some(loop) => Some(FromShape(Polyline(loop)))
  }

  /** What a call of `Occluder2d::polyline` ends in. */
  datatype PolylineOutcome = SlicePanic | Built(result: Option<Occluder>)

  /** `Occluder2d::polyline` as written: the reversed copy is sliced from index
      1 before any length check, so an empty list panics instead of giving None. */
  function PolylineAsWritten(v: seq<Vec2>): (r: PolylineOutcome)
    ensures r.SlicePanic? <==> |v| == 0
    ensures |v| > 0 ==> r == Built(PolylineOccluder(v))
  {
    if |v| == 0 then SlicePanic else Built(PolylineOccluder(v))
  }

  /** The empty list, which the documented contract maps to None, makes the
      written code panic. */
  lemma EmptyPolylinePanics()
    ensures PolylineAsWritten([]) == SlicePanic
    ensures PolylineOccluder([]) == None
  {
  }

  /** `Occluder2d::round_rectangle`: the shape padded by `radius`, inside the
      centred square of half-side max(width, height)/2 + radius. */
  function RoundRectangleOccluder(width: real, height: real, radius: real): (o: Occluder)
    ensures o.shape == RoundRectangle(width, height, radius)
    ensures o.rect == CentredBox(Max(width, height) / 2.0 + radius)
    ensures o.opacity == 1.0 && o.zSorting && o.color == BLACK
    ensures o.ignoredSprites == [] && o.offset == Vec3(0.0, 0.0, 0.0)
  {
    FromShape(RoundRectangle(width, height, radius))
  }

  /** `Occluder2d::rectangle`: a round rectangle without rounding. */
  function RectangleOccluder(width: real, height: real): (o: Occluder)
    ensures o.shape == RoundRectangle(width, height, 0.0)
    ensures o.rect == CentredBox(Max(width, height) / 2.0)
    ensures o.opacity == 1.0 && o.zSorting && o.color == BLACK
    ensures o.ignoredSprites == [] && o.offset == Vec3(0.0, 0.0, 0.0)
  {
    RoundRectangleOccluder(width, height, 0.0)
  }

  /** `Occluder2d::circle`: a round rectangle with no extent, whose rect is the
      square circumscribing the circle. */
  function CircleOccluder(radius: real): (o: Occluder)
    ensures o.shape == RoundRectangle(0.0, 0.0, radius)
    ensures o.rect == Box(Vec2(-radius, -radius), Vec2(radius, radius))
    ensures o.opacity == 1.0 && o.zSorting && o.color == BLACK
    ensures o.ignoredSprites == [] && o.offset == Vec3(0.0, 0.0, 0.0)
  {
    RoundRectangleOccluder(0.0, 0.0, radius)
  }

  /** `Occluder2d::vertical_capsule`: extent along y only. */
  function VerticalCapsuleOccluder(length: real, radius: real): (o: Occluder)
    ensures o.shape == RoundRectangle(0.0, length, radius)
    ensures o.rect == CentredBox(Max(0.0, length) / 2.0 + radius)
    ensures o.opacity == 1.0 && o.zSorting && o.color == BLACK
    ensures o.ignoredSprites == [] && o.offset == Vec3(0.0, 0.0, 0.0)
  {
    RoundRectangleOccluder(0.0, length, radius)
  }

  /** `Occluder2d::horizontal_capsule`: extent along x only. */
  function HorizontalCapsuleOccluder(length: real, radius: real): (o: Occluder)
    ensures o.shape == RoundRectangle(length, 0.0, radius)
    ensures o.rect == CentredBox(Max(length, 0.0) / 2.0 + radius)
    ensures o.opacity == 1.0 && o.zSorting && o.color == BLACK
    ensures o.ignoredSprites == [] && o.offset == Vec3(0.0, 0.0, 0.0)
  {
    RoundRectangleOccluder(length, 0.0, radius)
  }

  /** `Occluder2d::capsule`: the vertical capsule. */
  function CapsuleOccluder(length: real, radius: real): (o: Occluder)
    ensures o.shape == RoundRectangle(0.0, length, radius)
    ensures o.rect == CentredBox(Max(0.0, length) / 2.0 + radius)
    ensures o.opacity == 1.0 && o.zSorting && o.color == BLACK
    ensures o.ignoredSprites == [] && o.offset == Vec3(0.0, 0.0, 0.0)
  {
    VerticalCapsuleOccluder(length, radius)
  }

  /** A horizontal capsule is a vertical one turned a quarter: the same rect,
      width and height exchanged. */
  lemma CapsulesAreTransposed(length: real, radius: real)
    ensures HorizontalCapsuleOccluder(length, radius).rect == VerticalCapsuleOccluder(length, radius).rect
    ensures HorizontalCapsuleOccluder(length, radius).shape.width == VerticalCapsuleOccluder(length, radius).shape.height
    ensures HorizontalCapsuleOccluder(length, radius).shape.height == VerticalCapsuleOccluder(length, radius).shape.width
  {
  }

  /** `translate_vertices`: every vertex rotated by `rot` and moved by `pos`, in order. */
  function TranslateVertices(vs: seq<Vec2>, pos: Vec2, rot: Rot2): (r: seq<Vec2>)
    ensures |r| == |vs|
    ensures forall i :: 0 <= i < |vs| ==> r[i] == Place(vs[i], pos, rot)
  {
    if |vs| == 0 then [] else [Place(vs[0], pos, rot)] + TranslateVertices(vs[1..], pos, rot)
  }

  /** Under a proper rotation the placed outline is congruent to the stored one. */
  lemma TranslateIsCongruent(vs: seq<Vec2>, pos: Vec2, rot: Rot2, i: nat, j: nat)
    requires IsUnit(rot) && i < |vs| && j < |vs|
    ensures NormSq(Sub(TranslateVertices(vs, pos, rot)[i], TranslateVertices(vs, pos, rot)[j]))
         == NormSq(Sub(vs[i], vs[j]))
  {
    PlaceIsRigid(vs[i], vs[j], pos, rot);
  }

  /** `Occluder2dShape::vertices`: a polygon's stored vertices with the first
      appended once more, a polyline's as stored, both placed in the world;
      a round rectangle has none. */
  function ShapeVertices(shape: Shape, pos: Vec2, rot: Rot2): (r: seq<Vec2>)
    requires shape.Polygon? ==> |shape.vertices| > 0
    ensures shape.RoundRectangle? ==> r == []
    ensures shape.Polyline? ==> |r| == |shape.vertices|
    ensures shape.Polygon? ==> |r| == |shape.vertices| + 1 && r[|shape.vertices|] == r[0]
    ensures !shape.RoundRectangle? ==>
      forall i :: 0 <= i < |shape.vertices| ==> r[i] == Place(shape.vertices[i], pos, rot)
  {
    match shape
    case Polygon(vertices) => TranslateVertices(vertices + [vertices[0]], pos, rot)
    case Polyline(vertices) => TranslateVertices(vertices, pos, rot)
    case RoundRectangle(_, _, _) => []
  }

  /** `Occluder2dShape::vertices_iter`: the stored vertices placed in order,
      without closing a polygon; a round rectangle has no iterator at all. */
  function ShapeVerticesIter(shape: Shape, pos: Vec2, rot: Rot2): (r: Option<seq<Vec2>>)
    ensures r.None? <==> shape.RoundRectangle?
    ensures r.Some? ==> |r.value| == |shape.vertices|
    ensures r.Some? ==> forall i :: 0 <= i < |shape.vertices| ==> r.value[i] == Place(shape.vertices[i], pos, rot)
  {
    match shape
    case Polygon(vertices) => Some(TranslateVertices(vertices, pos, rot))
    case Polyline(vertices) => Some(TranslateVertices(vertices, pos, rot))
    case RoundRectangle(_, _, _) => None
  }

  /** The iterator and the vector agree on a polyline; on a polygon the vector
      has one more vertex, the closing copy of the first. */
  lemma VerticesIterAndVertices(shape: Shape, pos: Vec2, rot: Rot2)
    requires shape.Polygon? ==> |shape.vertices| > 0
    ensures shape.Polyline? ==> ShapeVerticesIter(shape, pos, rot) == Some(ShapeVertices(shape, pos, rot))
    ensures shape.Polygon? ==>
      && ShapeVerticesIter(shape, pos, rot).Some?
      && ShapeVertices(shape, pos, rot) == ShapeVerticesIter(shape, pos, rot).value + [ShapeVertices(shape, pos, rot)[0]]
  {
    var it := ShapeVerticesIter(shape, pos, rot);
    var vs := ShapeVertices(shape, pos, rot);
    if shape.Polyline? {
      assert it.value == vs;
    } else if shape.Polygon? {
      assert vs == it.value + [vs[0]];
    }
  }

  /** The outline of a polygon built from `v` has |v| + 2 vertices: the stored
      closing vertex plus the one `vertices` appends, both equal to the first. */
  lemma PolygonOutline(v: seq<Vec2>, pos: Vec2, rot: Rot2)
    requires |v| >= 2
    ensures var out := ShapeVertices(PolygonOccluder(v).value.shape, pos, rot);
            |out| == |v| + 2 && out[|v|] == out[0] && out[|v| + 1] == out[0]
  {
  }

  /** `ExtractedOccluder`: the render-world snapshot of an occluder. */
  datatype ExtractedOccluder = ExtractedOccluder(
    pos: Vec2,
    rot: real,
    shape: Shape,
    rect: Rect,
    z: real,
    color: Color,
    opacity: real,
    zSorting: bool)

  /** `PartialEq for ExtractedOccluder`: equal placement and shape. */
  predicate SameOccluder(a: ExtractedOccluder, b: ExtractedOccluder): (same: bool)
    ensures same <==> a.(rect := b.rect, z := b.z, color := b.color, opacity := b.opacity, zSorting := b.zSorting) == b
  {
    a.pos == b.pos && a.rot == b.rot && a.shape == b.shape
  }

  /** The comparison is an equivalence relation. */
  lemma SameOccluderIsEquivalence(a: ExtractedOccluder, b: ExtractedOccluder, c: ExtractedOccluder)
    ensures SameOccluder(a, a)
    ensures SameOccluder(a, b) ==> SameOccluder(b, a)
    ensures SameOccluder(a, b) && SameOccluder(b, c) ==> SameOccluder(a, c)
  {
  }

  /** Depth, colour, opacity, z-sorting and rect do not take part in the comparison,
      while any change of position, rotation or shape does. */
  lemma SameOccluderIgnoresAppearance(a: ExtractedOccluder, rect: Rect, z: real, color: Color, opacity: real, zSorting: bool)
    ensures SameOccluder(a, a.(rect := rect, z := z, color := color, opacity := opacity, zSorting := zSorting))
    ensures forall b: ExtractedOccluder :: b.pos != a.pos || b.rot != a.rot || b.shape != a.shape ==> !SameOccluder(a, b)
  {
  }
}

=== FILE: pipeline_key.dfy ===
/** `LightPipelineKey` of src/pipelines.rs: a 32-bit flag word packing the HDR,
    tonemap-in-shader and deband flags in bits 0-2, the tonemap method in bits
    26-28 and log2 of the MSAA sample count in bits 29-31, and what the two
    lightmap pipelines derive from it. */
module PipelineKey {
  import opened Wrappers
  import opened Bits

  type Key = bv32

  const NONE: Key := 0
  const HDR: Key := 1
  const TONEMAP_IN_SHADER: Key := 2
  const DEBAND_DITHER: Key := 4

  const MSAA_MASK_BITS: Key := 7
  const TONEMAP_METHOD_MASK_BITS: Key := 7
  /** 32 minus the width of the MSAA mask (see `ShiftsFollowMasks`). */
  const MSAA_SHIFT_BITS: nat := 29
  /** The MSAA shift minus the width of the tonemap method mask. */
  const TONEMAP_METHOD_SHIFT_BITS: nat := 26

  const MSAA_RESERVED_BITS: Key := MSAA_MASK_BITS << MSAA_SHIFT_BITS
  const TONEMAP_METHOD_RESERVED_BITS: Key := TONEMAP_METHOD_MASK_BITS << TONEMAP_METHOD_SHIFT_BITS
  const TONEMAP_METHOD_NONE: Key := 0 << TONEMAP_METHOD_SHIFT_BITS
  const TONEMAP_METHOD_REINHARD: Key := 1 << TONEMAP_METHOD_SHIFT_BITS
  const TONEMAP_METHOD_REINHARD_LUMINANCE: Key := 2 << TONEMAP_METHOD_SHIFT_BITS
  const TONEMAP_METHOD_ACES_FITTED: Key := 3 << TONEMAP_METHOD_SHIFT_BITS
  const TONEMAP_METHOD_AGX: Key := 4 << TONEMAP_METHOD_SHIFT_BITS
  const TONEMAP_METHOD_SOMEWHAT_BORING_DISPLAY_TRANSFORM: Key := 5 << TONEMAP_METHOD_SHIFT_BITS
  const TONEMAP_METHOD_TONY_MC_MAPFACE: Key := 6 << TONEMAP_METHOD_SHIFT_BITS
  const TONEMAP_METHOD_BLENDER_FILMIC: Key := 7 << TONEMAP_METHOD_SHIFT_BITS

  /** The shifts are the ones the masks' widths give: 32 - 3 and 29 - 3. */
  lemma ShiftsFollowMasks()
    ensures MSAA_SHIFT_BITS == 32 - CountOnes(MSAA_MASK_BITS)
    ensures TONEMAP_METHOD_SHIFT_BITS == MSAA_SHIFT_BITS - CountOnes(TONEMAP_METHOD_MASK_BITS)
  {
    CountOnesOfLowMask(32);
  }

  /** bitflags' `contains`: every bit of `flags` is set in `key`. */
  predicate Contains(key: Key, flags: Key)
  {
    key & flags == flags
  }

  /** `from_msaa_samples`: log2 of the sample count, masked to 3 bits, in the
      MSAA field. */
  function FromMsaaSamples(samples: bv32): (key: Key)
    ensures key & !MSAA_RESERVED_BITS == 0
  {
    (TrailingZeros(samples) & MSAA_MASK_BITS) << MSAA_SHIFT_BITS
  }

  /** `msaa_samples`: two to the power held in the MSAA field. */
  function MsaaSamples(key: Key): (samples: bv32)
    ensures samples in {1, 2, 4, 8, 16, 32, 64, 128}
  {
    var log2 := (key >> MSAA_SHIFT_BITS) & MSAA_MASK_BITS;
    assert log2 < 8;
    (1 as bv32) << log2
  }

  /** Decoding any encoded sample count gives 2^(trailing_zeros mod 8). */
  lemma MsaaDecodeOfEncode(samples: bv32)
    ensures MsaaSamples(FromMsaaSamples(samples)) == 1 << (TrailingZeros(samples) % 8)
  {
  }

  /** Every sample count from 1 to 128 survives the round trip. */
  lemma MsaaRoundTrip(k: bv32)
    requires k <= 7
    ensures MsaaSamples(FromMsaaSamples(1 << k)) == 1 << k
  {
    TrailingZerosOfPower(k);
    MsaaDecodeOfEncode(1 << k);
  }

  /** A sample count of 0 has 32 trailing zeros, which mask to 0: one sample. */
  lemma MsaaOfZeroSamples()
    ensures FromMsaaSamples(0) == 0
    ensures MsaaSamples(FromMsaaSamples(0)) == 1
  {
    TrailingZerosOfZero(0);
  }

  /** `from_hdr`. */
  function FromHdr(hdr: bool): (key: Key)
    ensures Contains(key, HDR) <==> hdr
    ensures key & !HDR == 0
  {
    if hdr then HDR else NONE
  }

  /** The three single-bit flags, the tonemap method field and the MSAA field
      occupy disjoint bits, and every tonemap method lies inside its field. */
  lemma FieldsDisjoint()
    ensures HDR & TONEMAP_IN_SHADER == 0 && HDR & DEBAND_DITHER == 0 && TONEMAP_IN_SHADER & DEBAND_DITHER == 0
    ensures (HDR | TONEMAP_IN_SHADER | DEBAND_DITHER) & (MSAA_RESERVED_BITS | TONEMAP_METHOD_RESERVED_BITS) == 0
    ensures MSAA_RESERVED_BITS & TONEMAP_METHOD_RESERVED_BITS == 0
    ensures MSAA_RESERVED_BITS == 0xE000_0000 && TONEMAP_METHOD_RESERVED_BITS == 0x1C00_0000
    ensures forall m :: m in MethodKeys() ==> m & !TONEMAP_METHOD_RESERVED_BITS == 0
  {
  }

  /** Setting any bits outside the MSAA field leaves the sample count alone. */
  lemma OrKeepsMsaa(key: Key, flags: Key)
    requires flags & MSAA_RESERVED_BITS == 0
    ensures MsaaSamples(key | flags) == MsaaSamples(key)
  {
  }

  /** In particular the flags and the tonemap methods. */
  lemma FlagsKeepMsaa(key: Key, flags: Key)
    requires flags in {HDR, TONEMAP_IN_SHADER, DEBAND_DITHER} || flags in MethodKeys()
    ensures MsaaSamples(key | flags) == MsaaSamples(key)
  {
    if flags in MethodKeys() {
      var i :| 0 <= i < |MethodKeys()| && MethodKeys()[i] == flags;
      assert flags & MSAA_RESERVED_BITS == 0;
    }
    OrKeepsMsaa(key, flags);
  }

  /** The tonemap method constants, by the value of the method field. */
  function MethodKeys(): (ms: seq<Key>)
    ensures |ms| == 8
    ensures forall i :: 0 <= i < |ms| ==> ms[i] & MSAA_RESERVED_BITS == 0
  {
    [TONEMAP_METHOD_NONE, TONEMAP_METHOD_REINHARD, TONEMAP_METHOD_REINHARD_LUMINANCE,
     TONEMAP_METHOD_ACES_FITTED, TONEMAP_METHOD_AGX, TONEMAP_METHOD_SOMEWHAT_BORING_DISPLAY_TRANSFORM,
     TONEMAP_METHOD_TONY_MC_MAPFACE, TONEMAP_METHOD_BLENDER_FILMIC]
  }

  /** The shader define naming each method, by the value of the method field. */
  const METHOD_DEFS: seq<string> := [
    "TONEMAP_METHOD_NONE", "TONEMAP_METHOD_REINHARD", "TONEMAP_METHOD_REINHARD_LUMINANCE",
    "TONEMAP_METHOD_ACES_FITTED", "TONEMAP_METHOD_AGX",
    "TONEMAP_METHOD_SOMEWHAT_BORING_DISPLAY_TRANSFORM",
    "TONEMAP_METHOD_TONY_MC_MAPFACE", "TONEMAP_METHOD_BLENDER_FILMIC"]

  /** The value of the tonemap method field. */
  function MethodIndex(key: Key): (i: nat)
    ensures i < 8
    ensures key & TONEMAP_METHOD_RESERVED_BITS == MethodKeys()[i]
  {
    var f := (key >> TONEMAP_METHOD_SHIFT_BITS) & TONEMAP_METHOD_MASK_BITS;
    assert f < 8;
    assert key & TONEMAP_METHOD_RESERVED_BITS == f << TONEMAP_METHOD_SHIFT_BITS;
    f as nat
  }

  /** `ShaderDefVal`: a boolean define or an unsigned-integer define. */
  datatype ShaderDef = Flag(name: string) | UInt(name: string, value: nat)

  /** The method define chosen by the `if`/`else if` chain of the creation
      pipeline, in the order the chain tests the methods. */
  function MethodDef(key: Key): (d: Option<string>)
    ensures d == Some(METHOD_DEFS[MethodIndex(key)])
  {
    var field := key & TONEMAP_METHOD_RESERVED_BITS;
    if field == TONEMAP_METHOD_NONE then Some("TONEMAP_METHOD_NONE")
    else if field == TONEMAP_METHOD_REINHARD then Some("TONEMAP_METHOD_REINHARD")
    else if field == TONEMAP_METHOD_REINHARD_LUMINANCE then Some("TONEMAP_METHOD_REINHARD_LUMINANCE")
    else if field == TONEMAP_METHOD_ACES_FITTED then Some("TONEMAP_METHOD_ACES_FITTED")
    else if field == TONEMAP_METHOD_AGX then Some("TONEMAP_METHOD_AGX")
    else if field == TONEMAP_METHOD_SOMEWHAT_BORING_DISPLAY_TRANSFORM then Some("TONEMAP_METHOD_SOMEWHAT_BORING_DISPLAY_TRANSFORM")
    else if field == TONEMAP_METHOD_BLENDER_FILMIC then Some("TONEMAP_METHOD_BLENDER_FILMIC")
    else if field == TONEMAP_METHOD_TONY_MC_MAPFACE then Some("TONEMAP_METHOD_TONY_MC_MAPFACE")
    else None
  }

  /** A define naming a tonemap method. */
  predicate IsMethodDef(d: ShaderDef)
  {
    d.Flag? && d.name in METHOD_DEFS
  }

  /** The shader defines of `LightmapCreationPipeline::specialize`. */
  function CreationShaderDefs(key: Key): (defs: seq<ShaderDef>)
    ensures !Contains(key, TONEMAP_IN_SHADER) ==> defs == []
    ensures Contains(key, TONEMAP_IN_SHADER) ==>
      && |defs| == 4 + (if Contains(key, DEBAND_DITHER) then 1 else 0)
      && defs[..3] == [Flag("TONEMAP_IN_SHADER"),
                       UInt("TONEMAPPING_LUT_TEXTURE_BINDING_INDEX", 1),
                       UInt("TONEMAPPING_LUT_SAMPLER_BINDING_INDEX", 2)]
      && defs[3] == Flag(METHOD_DEFS[MethodIndex(key)])
      && (Contains(key, DEBAND_DITHER) ==> defs[4] == Flag("DEBAND_DITHER"))
    ensures Flag("DEBAND_DITHER") in defs <==> Contains(key, TONEMAP_IN_SHADER) && Contains(key, DEBAND_DITHER)
  {
    if Contains(key, TONEMAP_IN_SHADER) then
      var lut := [Flag("TONEMAP_IN_SHADER"),
                  UInt("TONEMAPPING_LUT_TEXTURE_BINDING_INDEX", 1),
                  UInt("TONEMAPPING_LUT_SAMPLER_BINDING_INDEX", 2)];
      var methodDef := match MethodDef(key) case Some(name) => [Flag(name)] case None => [];
      var deband := if Contains(key, DEBAND_DITHER) then [Flag("DEBAND_DITHER")] else [];
      lut + methodDef + deband
    else []
  }

  /** Exactly one tonemap method define is emitted when tonemapping runs in the
      shader, and none otherwise. */
  lemma ExactlyOneMethodDef(key: Key)
    ensures Contains(key, TONEMAP_IN_SHADER) ==>
      && IsMethodDef(CreationShaderDefs(key)[3])
      && forall i :: 0 <= i < |CreationShaderDefs(key)| && i != 3 ==> !IsMethodDef(CreationShaderDefs(key)[i])
    ensures !Contains(key, TONEMAP_IN_SHADER) ==> forall d :: d in CreationShaderDefs(key) ==> !IsMethodDef(d)
  {
  }

  /** The colour target format of a pipeline. */
  datatype TextureFormat = HdrFormat | DefaultFormat

  /** Target format of both lightmap pipelines. */
  function TargetFormat(key: Key): (f: TextureFormat)
    ensures f == HdrFormat <==> Contains(key, HDR)
  {
    if Contains(key, HDR) then HdrFormat else DefaultFormat
  }

  /** The key-dependent part of a lightmap pipeline descriptor. */
  datatype PipelineDescriptor = PipelineDescriptor(
    format: TextureFormat,
    shaderDefs: seq<ShaderDef>,
    sampleCount: bv32)

  /** `LightmapCreationPipeline::specialize`: default multisampling (one sample). */
  function SpecializeCreation(key: Key): (d: PipelineDescriptor)
    ensures d.format == HdrFormat <==> Contains(key, HDR)
    ensures d.shaderDefs == CreationShaderDefs(key)
    ensures d.sampleCount == 1
  {
    PipelineDescriptor(TargetFormat(key), CreationShaderDefs(key), 1)
  }

  /** `LightmapApplicationPipeline::specialize`: no defines, the key's sample count. */
  function SpecializeApplication(key: Key): (d: PipelineDescriptor)
    ensures d.format == HdrFormat <==> Contains(key, HDR)
    ensures d.shaderDefs == []
    ensures d.sampleCount == MsaaSamples(key)
  {
    PipelineDescriptor(TargetFormat(key), [], MsaaSamples(key))
  }

  /** The camera's tonemapping operator. */
  datatype Tonemapping =
    | NoTonemapping | Reinhard | ReinhardLuminance | AcesFitted | AgX
    | SomewhatBoringDisplayTransform | TonyMcMapface | BlenderFilmic

  datatype DebandDither = Disabled | Enabled

  /** The method constant `queue_lights` picks for each operator. */
  function TonemapKey(t: Tonemapping): (k: Key)
    ensures k in MethodKeys()
  {
    match t
    case NoTonemapping => TONEMAP_METHOD_NONE
    case Reinhard => TONEMAP_METHOD_REINHARD
    case ReinhardLuminance => TONEMAP_METHOD_REINHARD_LUMINANCE
    case AcesFitted => TONEMAP_METHOD_ACES_FITTED
    case AgX => TONEMAP_METHOD_AGX
    case SomewhatBoringDisplayTransform => TONEMAP_METHOD_SOMEWHAT_BORING_DISPLAY_TRANSFORM
    case TonyMcMapface => TONEMAP_METHOD_TONY_MC_MAPFACE
    case BlenderFilmic => TONEMAP_METHOD_BLENDER_FILMIC
  }

  /** The define an operator is expected to produce in the shader. */
  function TonemapDefName(t: Tonemapping): string
  {
    match t
    case NoTonemapping => "TONEMAP_METHOD_NONE"
    case Reinhard => "TONEMAP_METHOD_REINHARD"
    case ReinhardLuminance => "TONEMAP_METHOD_REINHARD_LUMINANCE"
    case AcesFitted => "TONEMAP_METHOD_ACES_FITTED"
    case AgX => "TONEMAP_METHOD_AGX"
    case SomewhatBoringDisplayTransform => "TONEMAP_METHOD_SOMEWHAT_BORING_DISPLAY_TRANSFORM"
    case TonyMcMapface => "TONEMAP_METHOD_TONY_MC_MAPFACE"
    case BlenderFilmic => "TONEMAP_METHOD_BLENDER_FILMIC"
  }

  /** The tonemapping bits of a view key: the in-shader flag and the method,
      when the view has a tonemapper. */
  function TonemapBits(tonemapping: Option<Tonemapping>): (bits: Key)
    ensures tonemapping.None? ==> bits == 0
    ensures tonemapping.Some? ==> Contains(bits, TONEMAP_IN_SHADER)
  {
    match tonemapping
    case Some(t) => TONEMAP_IN_SHADER | TonemapKey(t)
    case None => 0
  }

  /** The deband bit of a view key. */
  function DebandBits(dither: Option<DebandDither>): (bits: Key)
    ensures bits == 0 || bits == DEBAND_DITHER
    ensures bits == DEBAND_DITHER <==> dither == Some(Enabled)
  {
    if dither == Some(Enabled) then DEBAND_DITHER else 0
  }

  /** The view key `queue_lights` composes from the view's MSAA key: HDR flag
      and MSAA field, and for non-HDR views the tonemapping and deband bits. */
  function ViewKey(hdr: bool, msaaKey: Key, tonemapping: Option<Tonemapping>, dither: Option<DebandDither>): (key: Key)
    ensures key & msaaKey == msaaKey
    ensures hdr ==> key & HDR == HDR
  {
    var key := FromHdr(hdr) | msaaKey;
    if hdr then key else key | TonemapBits(tonemapping) | DebandBits(dither)
  }

  /** The bits the view's settings add on top of its MSAA key. */
  function ViewFlags(hdr: bool, tonemapping: Option<Tonemapping>, dither: Option<DebandDither>): (flags: Key)
    ensures flags & MSAA_RESERVED_BITS == 0
  {
    if hdr then HDR else TonemapBits(tonemapping) | DebandBits(dither)
  }

  /** The composed key is the MSAA key with the settings' bits added. */
  lemma ViewKeySplits(hdr: bool, msaaKey: Key, tonemapping: Option<Tonemapping>, dither: Option<DebandDither>)
    ensures ViewKey(hdr, msaaKey, tonemapping, dither) == msaaKey | ViewFlags(hdr, tonemapping, dither)
  {
    var t := TonemapBits(tonemapping);
    var d := DebandBits(dither);
    if !hdr {
      assert (0 | msaaKey) | t | d == msaaKey | (t | d);
    }
  }

  /** The view's sample count can be read back from the composed key. */
  lemma ViewKeyMsaa(hdr: bool, samples: bv32, tonemapping: Option<Tonemapping>, dither: Option<DebandDither>)
    ensures var msaaKey := FromMsaaSamples(samples);
      MsaaSamples(ViewKey(hdr, msaaKey, tonemapping, dither)) == MsaaSamples(msaaKey)
  {
    var msaaKey := FromMsaaSamples(samples);
    ViewKeySplits(hdr, msaaKey, tonemapping, dither);
    OrKeepsMsaa(msaaKey, ViewFlags(hdr, tonemapping, dither));
  }

  /** The HDR, tonemap-in-shader and deband flags of the composed key say
      whether the view is HDR, has a tonemapper, and dithers. */
  lemma ViewKeyFlags(hdr: bool, samples: bv32, tonemapping: Option<Tonemapping>, dither: Option<DebandDither>)
    ensures var key := ViewKey(hdr, FromMsaaSamples(samples), tonemapping, dither);
      && (Contains(key, HDR) <==> hdr)
      && (Contains(key, TONEMAP_IN_SHADER) <==> !hdr && tonemapping.Some?)
      && (Contains(key, DEBAND_DITHER) <==> !hdr && dither == Some(Enabled))
  {
    var msaaKey := FromMsaaSamples(samples);
    ViewKeySplits(hdr, msaaKey, tonemapping, dither);
    var flags := ViewFlags(hdr, tonemapping, dither);
    assert msaaKey & 7 == 0;
    assert (msaaKey | flags) & 7 == flags & 7;
  }

  /** For a non-HDR view with a tonemapper, the creation pipeline emits the
      define of exactly that tonemapper, whatever the MSAA key (in particular
      `FromMsaaSamples` of any sample count). */
  lemma ViewKeyMethodDef(msaaKey: Key, t: Tonemapping, dither: Option<DebandDither>)
    requires msaaKey & !MSAA_RESERVED_BITS == 0
    ensures var key := ViewKey(false, msaaKey, Some(t), dither);
      Contains(key, TONEMAP_IN_SHADER) && CreationShaderDefs(key)[3] == Flag(TonemapDefName(t))
  {
    var key := ViewKey(false, msaaKey, Some(t), dither);
    var flags := ViewFlags(false, Some(t), dither);
    ViewKeySplits(false, msaaKey, Some(t), dither);
    assert key == msaaKey | flags;
    MethodFieldOfFlags(t, dither);
    MsaaKeyKeepsMethodField(msaaKey, flags);
    OrKeepsContains(msaaKey, flags, TONEMAP_IN_SHADER);
    MethodDefOfKey(key, t);
  }

  /** A key with tonemapping in the shader and an operator's method field
      yields that operator's define. */
  lemma MethodDefOfKey(key: Key, t: Tonemapping)
    requires Contains(key, TONEMAP_IN_SHADER)
    requires key & TONEMAP_METHOD_RESERVED_BITS == TonemapKey(t)
    ensures CreationShaderDefs(key)[3] == Flag(TonemapDefName(t))
  {
    MethodIndexOfTonemap(key, t);
  }

  /** The settings' bits of a tonemapped view carry the operator's method. */
  lemma MethodFieldOfFlags(t: Tonemapping, dither: Option<DebandDither>)
    ensures ViewFlags(false, Some(t), dither) & TONEMAP_METHOD_RESERVED_BITS == TonemapKey(t)
    ensures Contains(ViewFlags(false, Some(t), dither), TONEMAP_IN_SHADER)
  {
    var k := TonemapKey(t);
    var d := DebandBits(dither);
    assert k & !TONEMAP_METHOD_RESERVED_BITS == 0;
    assert (TONEMAP_IN_SHADER | k | d) & TONEMAP_METHOD_RESERVED_BITS == k;
  }

  /** Adding bits keeps the flags a word contains. */
  lemma OrKeepsContains(a: Key, b: Key, flags: Key)
    requires Contains(b, flags)
    ensures Contains(a | b, flags)
  {
  }

  /** A word with only MSAA bits leaves the method field of what it is or-ed to. */
  lemma MsaaKeyKeepsMethodField(msaaKey: Key, flags: Key)
    requires msaaKey & !MSAA_RESERVED_BITS == 0
    ensures (msaaKey | flags) & TONEMAP_METHOD_RESERVED_BITS == flags & TONEMAP_METHOD_RESERVED_BITS
  {
  }

  /** The method field written for an operator decodes to that operator's define. */
  lemma MethodIndexOfTonemap(key: Key, t: Tonemapping)
    requires key & TONEMAP_METHOD_RESERVED_BITS == TonemapKey(t)
    ensures METHOD_DEFS[MethodIndex(key)] == TonemapDefName(t)
  {
    var i := MethodIndex(key);
    assert MethodKeys()[i] == TonemapKey(t);
  }
}

=== FILE: seqs.dfy ===
/** Sequence helpers shared by the occluder geometry and the slot allocator. */
module Seqs {

  /** The elements of `s` in the opposite order (Rust's `iter().rev()` / `Vec::reverse`). */
  function Reverse<T>(s: seq<T>): (r: seq<T>)
    ensures |r| == |s|
    ensures forall i :: 0 <= i < |s| ==> r[i] == s[|s| - 1 - i]
  {
    if |s| == 0 then [] else Reverse(s[1..]) + [s[0]]
  }

  /** Reversing twice gives the sequence back. */
  lemma ReverseInvolutive<T>(s: seq<T>)
    ensures Reverse(Reverse(s)) == s
  {
  }

  /** Reversal keeps every element with its multiplicity. */
  lemma {:induction false} ReverseMultiset<T>(s: seq<T>)
    ensures multiset(Reverse(s)) == multiset(s)
  {
    if |s| > 0 {
      ReverseMultiset(s[1..]);
      assert Reverse(s) == Reverse(s[1..]) + [s[0]];
      assert s == [s[0]] + s[1..];
    }
  }

  /** Reversal moves a first element to the end and a last element to the front. */
  lemma ReverseEnds<T>(x: T, s: seq<T>)
    ensures Reverse([x] + s) == Reverse(s) + [x]
    ensures Reverse(s + [x]) == [x] + Reverse(s)
  {
  }

  /** A sequence that reads the same in both directions. */
  predicate IsPalindrome<T(==)>(s: seq<T>)
  {
    forall i :: 0 <= i < |s| ==> s[i] == s[|s| - 1 - i]
  }

  /** A palindrome is exactly a sequence that reversal leaves unchanged. */
  lemma PalindromeIffReverseFixed<T>(s: seq<T>)
    ensures IsPalindrome(s) <==> Reverse(s) == s
  {
    if Reverse(s) == s {
      forall i | 0 <= i < |s|
        ensures s[i] == s[|s| - 1 - i]
      {
        assert Reverse(s)[i] == s[|s| - 1 - i];
      }
    }
  }
}

=== FILE: slots.dfy ===
/** The render-world systems of src/buffers.rs that keep one GPU slot per
    visible round-rectangle occluder: filling slots each frame and releasing
    them when an occluder is removed or stops being visible. */
module OccluderSlots {
  import opened Wrappers
  import opened Geometry
  import opened Occluders
  import opened Buffers

  /** `UniformRoundOccluder`: what the shader reads for one round rectangle. */
  datatype UniformRoundOccluder = UniformRoundOccluder(
    pos: Vec2,
    rot: real,
    width: real,
    height: real,
    radius: real)

  /** An extracted occluder entity together with its `OccluderIndex` and whether
      its form changed this frame (a flag maintained outside this model). */
  datatype TrackedOccluder = TrackedOccluder(
    occluder: ExtractedOccluder,
    changedForm: bool,
    index: Option<nat>)

  /** The shader value for a round rectangle occluder. */
  function RoundUniform(o: ExtractedOccluder): (u: UniformRoundOccluder)
    requires o.shape.RoundRectangle?
    ensures u.pos == o.pos && u.rot == o.rot
    ensures u.width == o.shape.width && u.height == o.shape.height && u.radius == o.shape.radius
  {
    UniformRoundOccluder(o.pos, o.rot, o.shape.width, o.shape.height, o.shape.radius)
  }

  /** An occluder the frame has to (re)write: a round rectangle whose form
      changed or that holds no slot yet. */
  predicate NeedsWrite(t: TrackedOccluder)
  {
    t.occluder.shape.RoundRectangle? && (t.changedForm || t.index.None?)
  }

  /** No occluder after position `k` that was written this frame received the
      same slot as occluder `k`, so the value stored for `k` is still there. */
  predicate LastWriteOfSlot(occs: seq<TrackedOccluder>, occs': seq<TrackedOccluder>, k: nat)
    requires k < |occs'| <= |occs|
  {
    forall k' :: k < k' < |occs'| && NeedsWrite(occs[k']) ==> occs'[k'].index != occs'[k].index
  }

  /** Every occluder of the processed prefix `occs'` that was written and whose
      slot no later write reused finds its shader value in its slot of `buf`. */
  predicate Stored(occs: seq<TrackedOccluder>, occs': seq<TrackedOccluder>, buf: seq<UniformRoundOccluder>)
    requires |occs'| <= |occs|
  {
    forall k :: 0 <= k < |occs'| && NeedsWrite(occs[k]) && LastWriteOfSlot(occs, occs', k) ==>
      occs'[k].index.Some? && occs'[k].index.value + 1 < |buf| && buf[occs'[k].index.value + 1] == RoundUniform(occs[k].occluder)
  }

  /** One more occluder processed: a skipped one disturbs nothing, and a written
      one only replaces the slot it received, whose earlier writers are no
      longer the last. */
  lemma StoredStep(occs: seq<TrackedOccluder>, done: seq<TrackedOccluder>, t': TrackedOccluder,
                   buf: seq<UniformRoundOccluder>, buf': seq<UniformRoundOccluder>)
    requires |done| < |occs| && Stored(occs, done, buf)
    requires !NeedsWrite(occs[|done|]) ==> buf' == buf
    requires NeedsWrite(occs[|done|]) ==>
      && t'.index.Some? && t'.index.value + 1 < |buf'| && |buf| <= |buf'|
      && buf'[t'.index.value + 1] == RoundUniform(occs[|done|].occluder)
      && (forall j :: 0 <= j < |buf| && j != t'.index.value + 1 ==> buf'[j] == buf[j])
    ensures Stored(occs, done + [t'], buf')
  {
    var occs' := done + [t'];
    forall k | 0 <= k < |occs'| && NeedsWrite(occs[k]) && LastWriteOfSlot(occs, occs', k)
      ensures occs'[k].index.Some? && occs'[k].index.value + 1 < |buf'|
      ensures buf'[occs'[k].index.value + 1] == RoundUniform(occs[k].occluder)
    {
      if k < |done| {
        assert occs'[k] == done[k];
        assert LastWriteOfSlot(occs, done, k);
      }
    }
  }

  /** The processed prefix `occs'` of `occs`: occluders and flags as they were,
      skipped ones untouched, a slot below `stable` kept, written ones holding a
      slot inside the write range (and, for a tight manager, one already handed
      out). */
  predicate Processed(occs: seq<TrackedOccluder>, occs': seq<TrackedOccluder>, m: Manager<UniformRoundOccluder>,
                      tight: bool, stable: nat)
    requires |occs'| <= |occs|
  {
    && stable <= m.nextIndex
    && forall k :: 0 <= k < |occs'| ==>
      && occs'[k].occluder == occs[k].occluder && occs'[k].changedForm == occs[k].changedForm
      && (occs[k].index.Some? && occs[k].index.value < stable ==> occs'[k].index == occs[k].index)
      && (!NeedsWrite(occs[k]) ==> occs'[k] == occs[k])
      && (NeedsWrite(occs[k]) ==>
            && occs'[k].index.Some? && m.writeMin <= occs'[k].index.value + 1 <= m.writeMax
            && (tight ==> occs'[k].index.value < m.nextIndex))
  }

  /** One pass of the slot loop: an occluder that needs writing has its shader
      value stored through `set_value` and keeps the slot it gets back; any other
      occluder is skipped. */
  function WriteOccluder(m: Manager<UniformRoundOccluder>, t: TrackedOccluder): (res: (Manager<UniformRoundOccluder>, TrackedOccluder))
    requires Inv(m) && RangeValid(m) && |m.buffer| < USIZE_MAX
    ensures var (m', t') := res;
      && t'.occluder == t.occluder && t'.changedForm == t.changedForm
      && (!NeedsWrite(t) ==> m' == m && t' == t)
      && (t.index.Some? && t.index.value < m.nextIndex ==> t'.index == t.index)
      && (NeedsWrite(t) ==>
            && t'.index.Some? && m'.writeMin <= t'.index.value + 1 <= m'.writeMax
            && t'.index.value + 1 < |m'.buffer| && |m.buffer| <= |m'.buffer|
            && m'.buffer[t'.index.value + 1] == RoundUniform(t.occluder)
            && (forall j :: 0 <= j < |m.buffer| && j != t'.index.value + 1 ==> m'.buffer[j] == m.buffer[j])
            && (Valid(m) ==> t'.index.value < m'.nextIndex))
      && (!RangeEmpty(m) ==> m'.writeMin <= m.writeMin && m.writeMax <= m'.writeMax)
      && Inv(m') && RangeValid(m') && m'.capacity == m.capacity
      && |m'.buffer| <= |m.buffer| + 1 && m.nextIndex <= m'.nextIndex && m'.buffer[0] == m.buffer[0]
      && (Valid(m) ==> Valid(m'))
  {
    if NeedsWrite(t) then
      var (m1, slot) := SetValue(m, RoundUniform(t.occluder), t.index);
      (m1, t.(index := Some(slot)))
    else (m, t)
  }

  /** The processed prefix grows by one occluder as `WriteOccluder` handles it. */
  lemma ProcessedStep(occs: seq<TrackedOccluder>, done: seq<TrackedOccluder>,
                      m: Manager<UniformRoundOccluder>, tight: bool, stable: nat)
    requires |done| < |occs| && Inv(m) && RangeValid(m) && |m.buffer| < USIZE_MAX
    requires Processed(occs, done, m, tight, stable) && (tight ==> Valid(m))
    requires (forall k :: 0 <= k < |done| ==> !NeedsWrite(occs[k])) || !RangeEmpty(m)
    ensures var (m', t') := WriteOccluder(m, occs[|done|]);
            Processed(occs, done + [t'], m', tight, stable)
  {
    var (m', t') := WriteOccluder(m, occs[|done|]);
    var occs' := done + [t'];
    forall k | 0 <= k < |occs'|
      ensures occs'[k].occluder == occs[k].occluder && occs'[k].changedForm == occs[k].changedForm
      ensures !NeedsWrite(occs[k]) ==> occs'[k] == occs[k]
      ensures occs[k].index.Some? && occs[k].index.value < stable ==> occs'[k].index == occs[k].index
      ensures NeedsWrite(occs[k]) ==>
        && occs'[k].index.Some? && m'.writeMin <= occs'[k].index.value + 1 <= m'.writeMax
        && (tight ==> occs'[k].index.value < m'.nextIndex)
    {
      if k < |done| {
        assert occs'[k] == done[k];
      }
    }
  }

  /** What the slot loop keeps after handling the prefix `occs'` of `occs`,
      starting from manager `m` and now at `m'`. */
  predicate Filling(m: Manager<UniformRoundOccluder>, occs: seq<TrackedOccluder>,
                    m': Manager<UniformRoundOccluder>, occs': seq<TrackedOccluder>)
  {
    && |occs'| <= |occs|
    && Inv(m') && RangeValid(m') && m'.capacity == m.capacity
    && |m'.buffer| <= |m.buffer| + |occs'| && |m'.buffer| > 0 && |m.buffer| > 0 && m'.buffer[0] == m.buffer[0]
    && ((forall k :: 0 <= k < |occs'| ==> !NeedsWrite(occs[k])) ==> m' == m)
    && (Valid(m) ==> Valid(m'))
    && Processed(occs, occs', m', Valid(m), m.nextIndex)
    && Stored(occs, occs', m'.buffer)
  }

  /** One pass of the slot loop keeps `Filling`. */
  lemma FillingStep(m: Manager<UniformRoundOccluder>, occs: seq<TrackedOccluder>,
                    m': Manager<UniformRoundOccluder>, occs': seq<TrackedOccluder>)
    requires Filling(m, occs, m', occs') && |occs'| < |occs| && |m.buffer| + |occs| < USIZE_MAX
    ensures var (m1, t') := WriteOccluder(m', occs[|occs'|]);
            Filling(m, occs, m1, occs' + [t'])
  {
    var (m1, t') := WriteOccluder(m', occs[|occs'|]);
    ProcessedStep(occs, occs', m', Valid(m), m.nextIndex);
    StoredStep(occs, occs', t', m'.buffer, m1.buffer);
    var next := occs' + [t'];
    if forall k :: 0 <= k < |next| ==> !NeedsWrite(occs[k]) {
      assert !NeedsWrite(occs[|occs'|]);
    }
  }

  /** The slot loop of `prepare_occluders`: every round rectangle whose form
      changed or that has no slot gets its value stored and its slot recorded;
      everything else is left as it was. */
  method PrepareSlots(m: Manager<UniformRoundOccluder>, occs: seq<TrackedOccluder>)
      returns (m': Manager<UniformRoundOccluder>, occs': seq<TrackedOccluder>)
    requires Inv(m) && RangeValid(m)
    requires |m.buffer| + |occs| < USIZE_MAX
    ensures |occs'| == |occs|
    ensures forall k :: 0 <= k < |occs| ==>
      occs'[k].occluder == occs[k].occluder && occs'[k].changedForm == occs[k].changedForm
    ensures forall k :: 0 <= k < |occs| && !NeedsWrite(occs[k]) ==> occs'[k] == occs[k]
    ensures forall k :: 0 <= k < |occs| && NeedsWrite(occs[k]) ==>
      occs'[k].index.Some? && m'.writeMin <= occs'[k].index.value + 1 <= m'.writeMax
    ensures Stored(occs, occs', m'.buffer)
    ensures Inv(m') && RangeValid(m') && m'.capacity == m.capacity
    ensures |m'.buffer| <= |m.buffer| + |occs| && m'.buffer[0] == m.buffer[0]
    ensures (forall k :: 0 <= k < |occs| ==> !NeedsWrite(occs[k])) ==> m' == m
    ensures Valid(m) ==> Valid(m')
    ensures Valid(m) ==> forall k :: 0 <= k < |occs| && NeedsWrite(occs[k]) ==> occs'[k].index.value < m'.nextIndex
    ensures forall k :: 0 <= k < |occs| && occs[k].index.Some? && occs[k].index.value < m.nextIndex ==>
      occs'[k].index == occs[k].index
  {
    m' := m;
    occs' := [];
    var i := 0;
    while i < |occs|
      invariant 0 <= i <= |occs| && |occs'| == i
      invariant Filling(m, occs, m', occs')
    {
      FillingStep(m, occs, m', occs');
      var (m1, t') := WriteOccluder(m', occs[i]);
      m' := m1;
      occs' := occs' + [t'];
      i := i + 1;
    }
  }

  /** `prepare_occluders`: fills the slots, then flushes the manager. Every
      occluder that had to be written is part of this frame's upload. Without a
      reset the stored values stay in the manager's buffer; after one, the
      manager starts over from its placeholder while every occluder keeps the
      slot it was given. An occluder whose slot was already handed out keeps
      that slot either way. */
  method PrepareOccluders(m: Manager<UniformRoundOccluder>, occs: seq<TrackedOccluder>)
      returns (m': Manager<UniformRoundOccluder>, occs': seq<TrackedOccluder>, upload: Upload, reset: bool)
    requires Inv(m) && RangeValid(m)
    requires |m.buffer| + |occs| < USIZE_MAX
    ensures |occs'| == |occs|
    ensures forall k :: 0 <= k < |occs| && !NeedsWrite(occs[k]) ==> occs'[k] == occs[k]
    ensures forall k :: 0 <= k < |occs| && NeedsWrite(occs[k]) ==> occs'[k].index.Some?
    ensures forall k :: 0 <= k < |occs| && NeedsWrite(occs[k]) ==>
      match upload
      case NoUpload => false
      case WholeBuffer(len) => occs'[k].index.value + 1 < len
      case Range(start, end) => start <= occs'[k].index.value + 1 < end
    ensures (forall k :: 0 <= k < |occs| ==> !NeedsWrite(occs[k])) && RangeEmpty(m) ==> upload == NoUpload
    ensures Inv(m') && RangeValid(m') && RangeEmpty(m')
    ensures Valid(m) ==> Valid(m')
    ensures !reset ==> Stored(occs, occs', m'.buffer)
    ensures reset ==> m' == New(m.buffer[0])
    ensures forall k :: 0 <= k < |occs| && occs[k].index.Some? && occs[k].index.value < m.nextIndex ==>
      occs'[k].index == occs[k].index
  {
    var filled;
    filled, occs' := PrepareSlots(m, occs);
    var res := Flush(filled);
    m', upload, reset := res.0, res.1, res.2;
  }

  /** `on_occluder_removed` (and the slot part of `on_occluder_not_visible`):
      a round rectangle holding a slot hands it to `free_index` as written and
      forgets it; anything else is left alone. A slot the manager never handed
      out, such as one kept from before a reset, can be queued this way. */
  function ReleaseSlot(m: Manager<UniformRoundOccluder>, t: TrackedOccluder): (res: (Manager<UniformRoundOccluder>, TrackedOccluder))
    ensures !t.occluder.shape.RoundRectangle? || t.index.None? ==> res == (m, t)
    ensures t.occluder.shape.RoundRectangle? && t.index.Some? ==>
      res.1 == t.(index := None) && res.0 == FreeIndex(m, t.index.value)
    ensures Inv(m) ==> Inv(res.0)
    ensures Valid(m) && (t.index.Some? ==> t.index.value != m.nextIndex) ==> Valid(res.0)
    ensures res.1.index.None? || res.1 == t
  {
    if !t.occluder.shape.RoundRectangle? then (m, t)
    else match t.index
      case None => (m, t)
      case Some(i) => (FreeIndex(m, i), t.(index := None))
  }

  /** The release hook with the corrected guard of `FreeIndexChecked`: only a
      slot the manager handed out is queued, and the tight invariant always
      survives. */
  function ReleaseSlotChecked(m: Manager<UniformRoundOccluder>, t: TrackedOccluder): (res: (Manager<UniformRoundOccluder>, TrackedOccluder))
    ensures !t.occluder.shape.RoundRectangle? || t.index.None? ==> res == (m, t)
    ensures t.occluder.shape.RoundRectangle? && t.index.Some? ==>
      res.1 == t.(index := None) && res.0 == FreeIndexChecked(m, t.index.value)
    ensures Inv(m) ==> Inv(res.0)
    ensures Valid(m) ==> Valid(res.0)
  {
    if !t.occluder.shape.RoundRectangle? then (m, t)
    else match t.index
      case None => (m, t)
      case Some(i) => (FreeIndexChecked(m, i), t.(index := None))
  }

  /** The two hooks differ only on a slot from `nextIndex` up to the end of the
      buffer: on a slot handed out, or one past the buffer, they agree. */
  lemma ReleaseHooksAgree(m: Manager<UniformRoundOccluder>, t: TrackedOccluder)
    requires Inv(m)
    ensures (t.index.Some? ==> t.index.value < m.nextIndex || t.index.value >= |m.buffer|) ==>
      ReleaseSlot(m, t) == ReleaseSlotChecked(m, t)
    ensures t.occluder.shape.RoundRectangle? && t.index.Some? && m.nextIndex <= t.index.value < |m.buffer| ==>
      ReleaseSlot(m, t).0.freeIndices == [t.index.value] + m.freeIndices && ReleaseSlotChecked(m, t).0 == m
  {
  }

  /** With no other slot waiting, a released slot is the next one a later
      occluder receives. */
  lemma ReleasedSlotIsReusedNext(m: Manager<UniformRoundOccluder>, t: TrackedOccluder, u: UniformRoundOccluder)
    requires Valid(m) && RangeValid(m) && |m.buffer| < USIZE_MAX
    requires m.freeIndices == []
    requires t.occluder.shape.RoundRectangle? && t.index.Some? && t.index.value < m.nextIndex
    ensures SetValue(ReleaseSlot(m, t).0, u, None).1 == t.index.value
  {
  }
}

=== FILE: winding.dfy ===
/** Winding normalisation of occluder outlines (`normalize_vertices` and the
    turn list it inspects, src/occluders.rs:238-274). */
module Winding {
  import opened Wrappers
  import opened Seqs
  import opened Geometry

  /** The index after `i` on a loop of `n` vertices. */
  function Next(i: nat, n: nat): (j: nat)
    requires i < n
    ensures j < n
  {
    if i + 1 == n then 0 else i + 1
  }

  /** The index before `i` on a loop of `n` vertices. */
  function Prev(i: nat, n: nat): (j: nat)
    requires i < n
    ensures j < n
  {
    if i == 0 then n - 1 else i - 1
  }

  /** The turn the loop `v` makes at the window starting at vertex `i`. */
  function TurnAt(v: seq<Vec2>, i: nat): Orientation
    requires i < |v|
  {
    var n := |v|;
    Orient(v[i], v[Next(i, n)], v[Next(Next(i, n), n)])
  }

  /** `v.windows(3).map(orientation)`: one turn per run of three consecutive vertices. */
  function Windows3(v: seq<Vec2>): (t: seq<Orientation>)
    ensures |v| < 3 ==> t == []
    ensures |v| >= 3 ==> |t| == |v| - 2
    ensures forall i {:trigger t[i]} :: 0 <= i < |v| - 2 ==> t[i] == Orient(v[i], v[i + 1], v[i + 2])
  {
    if |v| < 3 then [] else [Orient(v[0], v[1], v[2])] + Windows3(v[1..])
  }

  /** The turn list of `normalize_vertices`: the windows of three, then the two
      windows that wrap around the end of the loop. */
  function Turns(v: seq<Vec2>): (t: seq<Orientation>)
    requires |v| >= 3
    ensures |t| == |v|
    ensures forall i :: 0 <= i < |v| ==> t[i] == TurnAt(v, i)
  {
    var n := |v|;
    Windows3(v) + [Orient(v[n - 2], v[n - 1], v[0]), Orient(v[n - 1], v[0], v[1])]
  }

  /** A loop that never turns left: clockwise (or degenerate). */
  predicate IsClockwise(v: seq<Vec2>)
    requires |v| >= 3
  {
    Left !in Turns(v)
  }

  /** A loop that turns both ways: concave, left as drawn. */
  predicate IsConcave(v: seq<Vec2>)
    requires |v| >= 3
  {
    Left in Turns(v) && Right in Turns(v)
  }

  /** `normalize_vertices`: None for fewer than two vertices; a loop that turns left
      but never right is reversed; every other loop is kept as given. */
  function NormalizeVertices(v: seq<Vec2>): (r: Option<seq<Vec2>>)
    ensures r.None? <==> |v| < 2
    ensures |v| == 2 ==> r == Some(v)
    ensures r.Some? ==> r.value == v || r.value == Reverse(v)
  {
    if |v| < 2 then None
    else if |v| < 3 then Some(v)
    else
      var t := Turns(v);
      if Left in t && Right in t then Some(v)
      else if Left in t then Some(Reverse(v))
      else Some(v)
  }

  /** The turn of the reversed loop at `j` mirrors the turn of `v` at the window
      that covers the same three vertices. */
  lemma TurnOfReverse(v: seq<Vec2>, j: nat)
    requires |v| >= 3 && j < |v|
    ensures TurnAt(Reverse(v), j) == Flip(TurnAt(v, Prev(Prev(|v| - 1 - j, |v|), |v|)))
  {
    var n := |v|;
    var w := Reverse(v);
    var m := n - 1 - j;
    var k := Prev(Prev(m, n), n);
    assert Next(k, n) == Prev(m, n);
    assert Next(Next(k, n), n) == m;
    assert w[j] == v[m];
    assert w[Next(j, n)] == v[Prev(m, n)];
    assert w[Next(Next(j, n), n)] == v[Prev(Prev(m, n), n)];
    OrientReverse(v[k], v[Next(k, n)], v[Next(Next(k, n), n)]);
  }

  /** Whether the loop makes turn `o` at some window. */
  predicate HasTurn(v: seq<Vec2>, o: Orientation)
  {
    exists i :: 0 <= i < |v| && TurnAt(v, i) == o
  }

  lemma TurnsHasTurn(v: seq<Vec2>, o: Orientation)
    requires |v| >= 3
    ensures o in Turns(v) <==> HasTurn(v, o)
  {
    if HasTurn(v, o) {
      var i :| 0 <= i < |v| && TurnAt(v, i) == o;
      assert Turns(v)[i] == o;
    }
  }

  /** Every turn of the reversed loop appears, mirrored, among the turns of `v`. */
  lemma MirrorFromReverse(v: seq<Vec2>, o: Orientation)
    requires |v| >= 3 && HasTurn(Reverse(v), o)
    ensures HasTurn(v, Flip(o))
  {
    var j :| 0 <= j < |v| && TurnAt(Reverse(v), j) == o;
    var k := Prev(Prev(|v| - 1 - j, |v|), |v|);
    TurnOfReverse(v, j);
    FlipInvolutive(TurnAt(v, k));
    assert TurnAt(v, k) == Flip(o);
  }

  /** Every turn of `v` appears, mirrored, among the turns of the reversed loop. */
  lemma MirrorToReverse(v: seq<Vec2>, o: Orientation)
    requires |v| >= 3 && HasTurn(v, o)
    ensures HasTurn(Reverse(v), Flip(o))
  {
    var k :| 0 <= k < |v| && TurnAt(v, k) == o;
    var j := |v| - 1 - Next(Next(k, |v|), |v|);
    assert Prev(Prev(|v| - 1 - j, |v|), |v|) == k;
    TurnOfReverse(v, j);
  }

  /** The reversed loop turns left exactly where `v` turns right, and vice versa. */
  lemma ReverseMirrorsTurns(v: seq<Vec2>)
    requires |v| >= 3
    ensures Left in Turns(Reverse(v)) <==> Right in Turns(v)
    ensures Right in Turns(Reverse(v)) <==> Left in Turns(v)
  {
    var w := Reverse(v);
    TurnsHasTurn(v, Left);
    TurnsHasTurn(v, Right);
    TurnsHasTurn(w, Left);
    TurnsHasTurn(w, Right);
    if HasTurn(w, Left) { MirrorFromReverse(v, Left); }
    if HasTurn(w, Right) { MirrorFromReverse(v, Right); }
    if HasTurn(v, Left) { MirrorToReverse(v, Left); }
    if HasTurn(v, Right) { MirrorToReverse(v, Right); }
  }

  /** After normalisation a loop is clockwise unless it was concave, and a concave
      or already clockwise loop is returned untouched. */
  lemma NormalizeWinding(v: seq<Vec2>)
    requires |v| >= 3
    ensures IsConcave(v) ==> NormalizeVertices(v) == Some(v)
    ensures IsClockwise(v) ==> NormalizeVertices(v) == Some(v)
    ensures !IsConcave(v) && !IsClockwise(v) ==> NormalizeVertices(v) == Some(Reverse(v))
    ensures !IsConcave(v) ==> IsClockwise(NormalizeVertices(v).value)
  {
    ReverseMirrorsTurns(v);
  }

  /** Normalisation neither adds, drops nor repeats vertices. */
  lemma NormalizeKeepsVertices(v: seq<Vec2>)
    requires |v| >= 2
    ensures |NormalizeVertices(v).value| == |v|
    ensures multiset(NormalizeVertices(v).value) == multiset(v)
  {
    ReverseMultiset(v);
  }

  /** Normalising a normalised loop changes nothing. */
  lemma NormalizeIdempotent(v: seq<Vec2>)
    requires |v| >= 2
    ensures NormalizeVertices(NormalizeVertices(v).value) == NormalizeVertices(v)
  {
    if |v| >= 3 {
      NormalizeWinding(v);
      var r := NormalizeVertices(v).value;
      if !IsConcave(v) {
        NormalizeWinding(r);
      }
    }
  }

  /** A palindromic loop (the doubled-back outline of a polyline) is its own
      reversal, so normalisation cannot change it. */
  lemma NormalizePalindrome(v: seq<Vec2>)
    requires IsPalindrome(v)
    ensures |v| >= 2 ==> NormalizeVertices(v) == Some(v)
  {
    PalindromeIffReverseFixed(v);
  }
}

=== FILE: wrappers.dfy ===
/** Optional values, the model of Rust's `Option`. */
module Wrappers {

  datatype Option<+T> = None | Some(value: T)
}
